=== FILE: README.md ===
# work_tracker: the time-entry core in Dafny

work_tracker is a Django/REST service that tracks billable work. Users log time entries against
tasks. An entry is started live and then paused, resumed and completed, or it is backfilled in one
step with its start and end. Each interval an entry has been active is billed separately:

- its seconds are added to `total_time`;
- its hours, rounded to six decimal places, are added to `hours`;
- the bill on those rounded hours at the task owner's hourly rate, rounded to two places, is added to `bill`.

This project models that core and proves properties of the model:

- the entry state machine of the request layer, both the current serializers and the older ones;
- the billables calculator;
- the admin form that adds a finished entry or changes a stored one;
- the enumeration field that carries actions and statuses;
- the password validator;
- users, the admin user forms and the three permission classes;
- the per-action serializer selection.

Units. An instant is a whole number of seconds. `hours` is kept in micro-hours, money in cents, and
an hourly rate in cents per hour, so every column is an exact integer. Python's `Decimal` rounding
(half to even) is written out as `Billables.RoundHalfEven`.

Errors. A request is refused in one of three ways, each a case of `Validation.Rejection`:

- a map from field name to message. Every failing field validator reports at once. The object-level
  `validate` runs only when no field failed, and reports under `non_field_errors` unless it names a field;
- a bare message, raised from a serializer's constructor;
- a crash: an exception that is not a validation error escapes, such as a `KeyError`.

Request fields. Each field of a request is a `Validation.Input`: not sent, sent as JSON `null`, sent
but unparsable (carrying the parser's message), or given. A required field that was not sent is
reported as required, a null as "This field may not be null.", and a malformed value with its
parser's message. An update validates partially, so there a field that was not sent is skipped.

Files, one module each (`results.dfy` holds two):

- `results.dfy`: `Results` (Option, Result) and `Validation` (error shapes, field-error collection, `CharField`);
- `text.dfy`: ASCII string helpers (`strip`, `lower`, `isdigit`, decimal numerals);
- `enum_fields.dfy`: the serializer `EnumField`; `enums.dfy`: the four enumerations;
- `models.dfy`: tasks, entries, column precision; `billables.dfy`: the calculator;
- `entry_api.dfy`: the current entry serializers; `legacy_entry_api.dfy`: the older ones;
- `entry_admin_form.dfy`: the admin entry form;
- `passwords.dfy`, `users.dfy`, `user_forms.dfy`: the password validator, the user model, the admin user forms;
- `permissions.dfy`: the permission classes; `serializer_selection.dfy`: the per-action serializer mixin.

Two behaviours of the code that are easy to misread:

- Completing a paused entry still checks `entry_time` against `start_time`. The field validator runs
  whatever the action; see `EntryApi.CompleteFromPausedChecksTime`.
- Resuming is not checked against `pause_time`, so a resume earlier than the pause is accepted; see
  `EntryApi.ResumeBeforePause`.

## Model

| member | source | states |
|---|---|---|
| Validation.CharField | work_tracker/apps/api/components/tracker/serializers.py:145 | An absent comment is accepted as absent. A given comment is refused as blank exactly when it is all whitespace. Otherwise it is kept with surrounding whitespace removed. |
| Text.StripEmpty | work_tracker/apps/users/models.py:80 | Stripping leaves nothing exactly when every character is whitespace. |
| Text.LowerIdempotent | work_tracker/apps/api/fields.py:19-23 | Lowercasing an already lowercased string changes nothing, so the stored lowercased email compares like any other lowercased text. |
| Text.DecInjective | work_tracker/apps/api/fields.py:98 | Two integers with the same decimal numeral are equal, so looking a choice up by `str(input)` finds at most one value. |
| EnumFields.NewField | work_tracker/apps/api/fields.py:56-80 | The field is built exactly when the name field, the value field, the listed fields and every given choice are admissible. Otherwise the first inadmissible one, in that order, gives its own `ValueError`. Without choices the field offers the whole enumeration. Its choices are the distinct given members, in declaration order. |
| EnumFields.ChoicePairs | work_tracker/apps/api/fields.py:77-79 | One pair per offered member, in the same order. For a field without extra attributes, each pair's value is what the field writes for its member. |
| EnumFields.ChoicePairsDistinct | work_tracker/apps/api/fields.py:70-79 | For a well-formed enumeration, no two offered pairs share a value, so no choice shadows another. |
| EnumFields.AllMembersOrdered | work_tracker/apps/api/fields.py:68-75 | Sorting the set of all members by declaration index gives back the declaration itself. |
| EnumFields.InDeclarationOrder | work_tracker/apps/api/fields.py:75 | Sorting chosen members by declaration index keeps exactly the chosen members of the declaration, each once, in strictly increasing declaration position. |
| EnumFields.Admissible | work_tracker/apps/api/fields.py:68-75 | Choices are refused exactly when one of them is neither a member nor a value. Without choices every member is offered in declaration order. Given choices yield exactly the members they resolve to, deduplicated and in declaration order. |
| EnumFields.ToRepresentation | work_tracker/apps/api/fields.py:82-88 | No member is shown as null. Without `fields` a member is shown as its value attribute; with `fields` it is a map holding exactly those attributes. |
| EnumFields.ToInternalValue | work_tracker/apps/api/fields.py:90-107 | Any accepted input is a member of the enumeration. Blank is accepted as nothing only when blanks are allowed. A member passed as itself is returned unchanged. Any other accepted input is the member's name, with `value_field="name"`, or has the member's value as its text, with `value_field="value"`; in a well-formed enumeration that member is one of the offered choices. Every refusal carries the invalid-choice message for that input. |
| EnumFields.NameRoundTrip | work_tracker/apps/api/fields.py:82-105 | With `value_field="name"`, every offered member is shown as its name, and parsing that name gives the member back. |
| EnumFields.ValueRoundTrip | work_tracker/apps/api/fields.py:82-98 | With `value_field="value"`, every offered member is shown as its integer, and both the integer and its decimal text parse back to the member. |
| EnumFields.UnknownNameRejected | work_tracker/apps/api/fields.py:99-107 | A string that names no offered member is refused with the invalid-choice message. |
| EnumFields.UnknownValueRejected | work_tracker/apps/api/fields.py:96-98 | With `value_field="value"`, an input whose text is no offered member's value is refused with the invalid-choice message, the `KeyError` path. |
| EnumFields.SameNameSameMember | work_tracker/apps/api/fields.py:102-105 | In a well-formed enumeration a name identifies one member, so the first match by name is the only one. |
| Enums.EntryStatusClosed | work_tracker/apps/tracker/enums.py:29-32 | Every entry status is read back from its stored integer and sits at position value - 1 of the declaration, which is well formed. |
| Enums.EntryActionClosed | work_tracker/apps/tracker/enums.py:35-38 | The same for the three actions. |
| Enums.TaskStatusClosed | work_tracker/apps/tracker/enums.py:17-26 | Every task status, two of which carry declared labels, is read back from its stored integer and sits at position value - 1 of the declaration. |
| Enums.TaskStatusDeclWellFormed | work_tracker/apps/tracker/enums.py:17-26 | The task status declaration has distinct names and distinct values. |
| Enums.TaskTypeClosed | work_tracker/apps/tracker/enums.py:4-14 | Every task type is read back from its stored integer and sits at position value - 1 of the declaration. |
| Enums.TaskTypeDeclWellFormed | work_tracker/apps/tracker/enums.py:4-14 | The task type declaration has distinct names and distinct values. |
| Models.NewTask | work_tracker/apps/tracker/models.py:37-45 | A task created with its required fields is a `FEATURE` (stored 1) in status `NEW` (stored 1) with an empty description. |
| Models.NewEntry | work_tracker/apps/tracker/models.py:54-64 | A new entry keeps its given fields. It is `ACTIVE` (stored 1), unpaused, and every total is zero. |
| Models.NewEntryStorable | work_tracker/apps/tracker/models.py:61-64 | A new entry's totals fit their columns: a positive-integer column and decimals of 10 and 8 digits. |
| Models.ColumnBounds | work_tracker/apps/tracker/models.py:62-64 | In model units the column limits are 10^4 hours and 10^6 currency units. |
| Billables.RoundHalfEven | work_tracker/apps/utils.py:17-18 | The rounded quotient is within half a unit of the exact quotient, and on an exact half it is even. |
| Billables.RoundHalfEvenUnique | work_tracker/apps/utils.py:17-18 | Only one integer has those two properties, so the rounding is Python's `Decimal` rounding and nothing else. |
| Billables.HoursIncrement | work_tracker/apps/utils.py:17 | The hours of an interval are strictly within half a micro-hour of seconds / 3600. |
| Billables.BillIncrement | work_tracker/apps/utils.py:18 | The bill is within half a cent of hours times rate, and even on a tie. |
| Billables.Accumulate | work_tracker/apps/utils.py:7-24 | Only the totals change. The seconds grow by exactly the interval. The hours and the bill grow by the rounded increments of that interval. Each increment is within half a unit of the exact amount, and an exact half is rounded to the even bill. |
| Billables.HoursNeverTie | work_tracker/apps/utils.py:17 | No whole number of seconds lies exactly halfway between two micro-hours. |
| Billables.IncrementsNonNegative | work_tracker/apps/utils.py:16-18 | A forward interval at a non-negative rate adds non-negative hours and bill. |
| Billables.AccumulateMonotone | work_tracker/apps/utils.py:16-23 | Over a forward interval at a non-negative rate, no total decreases. |
| Billables.WholeHours | work_tracker/apps/utils.py:16-18 | k whole hours are billed exactly: k hours and k times the rate. |
| Billables.SplitRoundingWithinOne | work_tracker/apps/utils.py:16-23 | Rounding two intervals separately differs from rounding their sum by at most one micro-hour. |
| Billables.SplitRoundingDiffers | work_tracker/apps/utils.py:16-23 | Per-interval rounding is not additive: two 2-second intervals give 1112 micro-hours, one 4-second interval gives 1111. |
| EntryApi.Create | work_tracker/apps/api/components/tracker/serializers.py:37-64 | An entry is started exactly when the task exists and is the requester's own, and the start is not in the future. A field not sent is required, a null or malformed one is reported with its own message, and so are an unknown task, somebody else's task and a future start. The started entry is a fresh active entry at that start. |
| EntryApi.ActionFieldConstructed | work_tracker/apps/api/components/tracker/serializers.py:70 | The action field is the enumeration field's construction with its defaults, and it offers all three actions. |
| EntryApi.ParseAction | work_tracker/apps/api/components/tracker/serializers.py:70 | An accepted action was sent as its name or as the member itself. Anything else is an invalid choice with the field's message for that input. |
| EntryApi.ParseActionName | work_tracker/apps/api/components/tracker/serializers.py:70 | Every action's name parses to that action. |
| EntryApi.ParseActionUnknown | work_tracker/apps/api/components/tracker/serializers.py:70 | Any other string is refused as an invalid choice. |
| EntryApi.Transition | work_tracker/apps/api/components/tracker/serializers.py:104-133 | Pause records the pause time and bills the active interval. Resume restarts the clock without billing. Complete from active bills up to the given time and ends there. Complete from paused ends at the pause time without billing. |
| EntryApi.Apply | work_tracker/apps/api/components/tracker/serializers.py:75-102 | Errors come in the source's order: a completed entry is refused outright, then an entry time before the start, then pausing a non-active or resuming a non-paused entry. Otherwise the transition is applied. |
| EntryApi.UpdateFieldErrors | work_tracker/apps/api/components/tracker/serializers.py:67-73 | No field error is reported exactly when the action, entry time and bill checks all passed. Each failing check is reported under its own field with its own message. |
| EntryApi.Update | work_tracker/apps/api/components/tracker/serializers.py:67-137 | A completed entry is refused before any field. Fields are validated partially, as the view asks: a null or malformed action, entry time or bill, an invalid action or an early entry time is reported on its field. The bill is writable because it is listed in the serializer's fields, and an accepted bill is ignored. If no field fails, an action that was not sent raises `KeyError`. An entry time that was not sent raises `KeyError` once the action checks pass. A success applied the parsed action at the given time. |
| EntryApi.MissingActionCrashes | work_tracker/apps/api/components/tracker/serializers.py:82-83 | An update of an open entry without an action, and with no early entry time, crashes with `KeyError`. |
| EntryApi.Validated | work_tracker/apps/api/components/tracker/serializers.py:82-133 | Once every field passed: an action that was not sent raises `KeyError`; an entry time that was not sent raises `KeyError` once the action checks pass; otherwise the outcome is the state machine's for the parsed action and the given time. |
| EntryApi.MissingEntryTimeCrashes | work_tracker/apps/api/components/tracker/serializers.py:110-111 | Pausing an active entry without an entry time crashes with `KeyError`. |
| EntryApi.NullFieldsReported | work_tracker/apps/api/components/tracker/serializers.py:67-73 | Unlike fields that were not sent, an action, an entry time and a bill sent as null are all reported, and nothing crashes. |
| EntryApi.BillIgnored | work_tracker/apps/api/components/tracker/serializers.py:104-137 | A bill the field accepts leaves the outcome as it is without one; a null bill refuses the request. |
| EntryApi.UpdateByName | work_tracker/apps/api/components/tracker/serializers.py:82-102 | A request naming an action and a time has the same outcome as applying that action at that time. |
| EntryApi.ApplyPreservesConsistent | work_tracker/apps/api/components/tracker/serializers.py:97-131 | A successful update keeps an entry in a reachable state (status agrees with which times are set and how they are ordered) and no total decreases. |
| EntryApi.RunPreservesConsistent | work_tracker/apps/api/components/tracker/serializers.py:97-131 | Over any sequence of successful updates, the entry stays in a reachable state and no total decreases. |
| EntryApi.CompletedIsFinal | work_tracker/apps/api/components/tracker/serializers.py:78-79 | Every update of a completed entry is refused with the same message, so the entry never changes again. |
| EntryApi.PauseResumeComplete | work_tracker/apps/api/components/tracker/serializers.py:113-131 | Pause, resume, complete succeeds. The total time is the sum of the two active intervals, and the hours and bill are the sums of their separately rounded increments. |
| EntryApi.CompleteFromPaused | work_tracker/apps/api/components/tracker/serializers.py:128-131 | Completing a paused entry ends it at the pause time and adds nothing to any total, whatever entry time was sent. |
| EntryApi.CompleteFromPausedChecksTime | work_tracker/apps/api/components/tracker/serializers.py:97-102 | Completing a paused entry with an entry time before its start is refused on `entry_time`. |
| EntryApi.ResumeBeforePause | work_tracker/apps/api/components/tracker/serializers.py:118-121 | A resume time earlier than the pause time is accepted and becomes the new start. |
| EntryApi.PauseWholeHours | work_tracker/apps/api/components/tracker/serializers.py:113-116 | Pausing a fresh entry after k whole hours bills k hours at the rate exactly. |
| EntryApi.CommentError | work_tracker/apps/api/components/tracker/serializers.py:145 | The optional comment is refused, as blank, exactly when it is given and all whitespace. |
| EntryApi.ManualFieldErrors | work_tracker/apps/api/components/tracker/serializers.py:141-158 | No field error is reported exactly when every field check passed. Each failing check is reported under its own field with its own message. |
| EntryApi.Backfilled | work_tracker/apps/api/components/tracker/serializers.py:176-178 | A backfilled entry keeps its task, comment and interval, is unpaused, and carries one billing of the whole interval on top of a fresh entry. |
| EntryApi.CreateManual | work_tracker/apps/api/components/tracker/serializers.py:140-181 | Field errors first: required fields not sent, nulls, malformed values, a task not the requester's and a blank comment, each on its field. Then an interval reaching past the current time is refused as a non-field error. Then a start not before the end is refused on `start_time`. A backfilled entry keeps its fields, is billed once over the interval and is complete. |
| EntryApi.CreateManualConsistent | work_tracker/apps/api/components/tracker/serializers.py:176-181 | A backfilled entry is in a reachable state. |
| EntryApi.ManualWholeHours | work_tracker/apps/api/components/tracker/serializers.py:176-181 | A backfilled entry of k whole hours bills k hours at the rate exactly. |
| EntryAdminForm.Saved | work_tracker/apps/tracker/forms.py:22-32 | The form saves into the stored entry, a fresh one when adding and the existing one when changing. The saved entry is complete, keeps the stored pause time, and its totals are set to the one interval's billables rather than added. |
| EntryAdminForm.SavedKeepsOnlyPause | work_tracker/apps/tracker/forms.py:22-31 | Of the stored entry, saving keeps only the pause time; whatever was billed before is discarded. |
| EntryAdminForm.Add | work_tracker/apps/tracker/forms.py:14-20 | As written, whether adding or changing: a start or end time that failed its own field crashes the form with a `KeyError`. With both times present it behaves as the corrected form. |
| EntryAdminForm.AddChecked | work_tracker/apps/tracker/forms.py:14-20 | An entry is added exactly when the task is a valid choice, both times are given and the start is before the end. Each error is reported on its own field. |
| EntryAdminForm.AddAgreesWhenTimesGiven | work_tracker/apps/tracker/forms.py:14-20 | With both times given, the form as written and the corrected one agree on every input. |
| EntryAdminForm.MissingStartCrashes | work_tracker/apps/tracker/forms.py:15-16 | A missing start crashes the form as written, where the corrected form reports `start_time` as required. |
| EntryAdminForm.AgreesWithManualEntry | work_tracker/apps/tracker/forms.py:22-32 | Adding an entry that was never paused, for an interval in the past, the admin form saves the same entry as the backfill request. |
| EntryAdminForm.FutureIntervalAccepted | work_tracker/apps/tracker/forms.py:14-20 | The admin form accepts an interval in the future, which the backfill request refuses. |
| EntryAdminForm.WholeHoursSaved | work_tracker/apps/tracker/forms.py:25-29 | k whole hours are saved as k hours billed at k times the rate. |
| EntryAdminForm.ChangeDiscardsEarlierBilling | work_tracker/apps/tracker/admin.py:68 | Changing a paused entry that was billed before completes it over the new interval alone. Its pause time is kept, and what was billed up to the pause is dropped. |
| LegacyEntryApi.Create | work_tracker/apps/tracker/api/serializers.py:89-121 | Corrected: the older start request succeeds exactly when the task is the requester's own and the start is not in the future. Somebody else's or an unknown task is reported as not assigned, and a future start with the current message. |
| LegacyEntryApi.CreateAsWritten | work_tracker/apps/tracker/api/serializers.py:89-121 | As written, no entry is ever started. A request with a task id crashes with `AttributeError` on `entries`, and one without is refused with its field errors. |
| LegacyEntryApi.CreateCrashesAsWritten | work_tracker/apps/tracker/api/serializers.py:111-117 | Starting one's own task at a past time crashes as written and succeeds once corrected. |
| LegacyEntryApi.CreateStartAgrees | work_tracker/apps/tracker/api/serializers.py:102-117 | For every request, the corrected older start and the current start give the same result, unless the task id names no task. Then the older one reports it as not assigned and the current one as not existing. |
| LegacyEntryApi.Transition | work_tracker/apps/tracker/api/serializers.py:161-180 | With the action compared as a member and the hours added exactly: pause and resume behave as in the current code, and complete always bills up to the given time and ends there. |
| LegacyEntryApi.Check | work_tracker/apps/tracker/api/serializers.py:132-159 | The older validation refuses exactly when the current one does, with the same error. |
| LegacyEntryApi.UpdateAsWritten | work_tracker/apps/tracker/api/serializers.py:132-180 | As written: refused as the current update, and every accepted update crashes with `TypeError` before it is saved. |
| LegacyEntryApi.Update | work_tracker/apps/tracker/api/serializers.py:132-180 | Corrected in both its dispatch and its float addition: accepted and refused as the current update, and accepted updates apply the corrected transition. |
| LegacyEntryApi.PauseCrashesAsWritten | work_tracker/apps/tracker/api/serializers.py:24-178 | A pause of an active entry crashes as written, where the corrected update pauses it. |
| LegacyEntryApi.ResumeCrashesAsWritten | work_tracker/apps/tracker/api/serializers.py:24-178 | A resume of a paused entry crashes as written, where the corrected update restarts it at the given time. |
| LegacyEntryApi.CorrectedAgreesWithCurrent | work_tracker/apps/tracker/api/serializers.py:161-180 | Except when completing a paused entry, the corrected older update and the current one give the same result. |
| LegacyEntryApi.CompleteFromPausedDiffers | work_tracker/apps/tracker/api/serializers.py:175-178 | Completing a paused entry, the corrected older update ends at the given time and bills the paused stretch. The current code ends at the pause time and bills nothing more. |
| LegacyEntryApi.RequiredCommentError | work_tracker/apps/tracker/api/serializers.py:211 | The older comment field passes exactly when a comment is given and is not all whitespace. A missing comment is required and a blank one is refused as blank. |
| LegacyEntryApi.CreateManualAsWritten | work_tracker/apps/tracker/api/serializers.py:206-222 | As written, no backfill request succeeds. A given task id crashes on the missing `user` attribute, and a task id not sent is reported as required. |
| LegacyEntryApi.CreateManual | work_tracker/apps/tracker/api/serializers.py:206-235 | Corrected: the task must be the requester's own, and a comment is required. An end not after the start is refused as a non-field error. A backfilled entry keeps its fields and is billed once over the interval. |
| LegacyEntryApi.ManualEntryDiffers | work_tracker/apps/tracker/api/serializers.py:231-235 | A backfilled older entry is left `ACTIVE` with an end time, which is not a reachable state. In every other field it equals the current backfilled entry. |
| Passwords.NewValidator | work_tracker/apps/api/fields.py:14-16 | A new validator holds no email, whatever email it was given, and keeps its minimum length. |
| Passwords.SetContext | work_tracker/apps/api/fields.py:18-19 | The email compared against is the submitted email if there is one, otherwise the requester's, and it is lowercased. |
| Passwords.Check | work_tracker/apps/api/fields.py:21-33 | A password passes exactly when it differs from the email ignoring case, is long enough and is not all digits. Otherwise the first failing rule's message is given, in that order. |
| Passwords.CheckIgnoresCase | work_tracker/apps/api/fields.py:23-32 | Two passwords that lowercase alike get the same verdict. |
| Passwords.EmailRefused | work_tracker/apps/api/fields.py:18-24 | After the context is set, a password equal to the relevant email ignoring case is refused for that reason. |
| Passwords.NoEmailRuleWithoutContext | work_tracker/apps/api/fields.py:14-24 | Before the context is set, no password is refused for matching the email. |
| Passwords.DefaultTooShort | work_tracker/apps/api/fields.py:14-30 | With the default minimum, seven characters are too short, with the message naming 8. |
| Passwords.DefaultNumeric | work_tracker/apps/api/fields.py:26-33 | Eight digits are refused as numeric, and seven digits and a letter pass. |
| Users.JoinedName | work_tracker/apps/users/models.py:80 | The joined name is empty exactly when both parts are all whitespace. |
| Users.Save | work_tracker/apps/users/models.py:79-81 | Saving recomputes the name from the first and last names and changes nothing else. |
| Users.SaveIdempotent | work_tracker/apps/users/models.py:79-81 | Saving twice is saving once. |
| Users.ShortName | work_tracker/apps/users/models.py:83-90 | The first name if set, else the name if set, else the email. |
| Users.FullName | work_tracker/apps/users/models.py:92-99 | The name if set, else the email. |
| Users.SavedFullName | work_tracker/apps/users/models.py:79-99 | After saving, the full name is the joined first and last names, or the email when both are blank. |
| Users.SavedShortName | work_tracker/apps/users/models.py:79-90 | A saved user with no first name and a blank last name is called by their email. |
| Users.CreateUser | work_tracker/apps/users/models.py:25-31 | A user is created exactly when an email is given. The user holds that email and password and has default flags. |
| Users.CreateSuperuser | work_tracker/apps/users/models.py:33-40 | A missing password is refused before a missing email. A superuser is created exactly when both are given and is staff and superuser. |
| UserForms.ChangeSave | work_tracker/apps/users/forms.py:15-27 | After saving, a user is deactivated exactly when inactive. An earlier deactivation time is kept, otherwise the current time is recorded. Nothing else differs from a plain save. |
| UserForms.ChangeSaveIdempotent | work_tracker/apps/users/forms.py:15-27 | Saving the change form again, at any later time, changes nothing. |
| UserForms.Created | work_tracker/apps/users/forms.py:60-67 | A created user has the stripped first and last names joined as their name and the submitted email, password, rate and flags. |
| UserForms.CreateFieldErrors | work_tracker/apps/users/forms.py:41-45 | No field error is reported exactly when both names and the rate pass their own checks. Each failing check is reported under its field with its message. |
| UserForms.CreateAsWritten | work_tracker/apps/users/forms.py:43-58 | As written, a negative rate crashes `clean` with a `KeyError`. Any other input behaves as the corrected form. |
| UserForms.Create | work_tracker/apps/users/forms.py:41-58 | Corrected: a user is created exactly when both names are valid, the rate is not negative, and a non-staff, non-superuser has a nonzero rate. Each error is reported on its field. |
| UserForms.ZeroRateIsMissing | work_tracker/apps/users/forms.py:49-58 | For an ordinary user a rate of zero is treated as no rate and refused. |
| UserForms.StaffNeedNoRate | work_tracker/apps/users/forms.py:47-58 | Staff and superusers are created without a rate. |
| UserForms.NegativeRateCrashes | work_tracker/apps/users/forms.py:43-58 | A negative rate crashes the form as written, where the corrected form reports it on `rate`. |
| UserForms.CreatedNameAsSaved | work_tracker/apps/users/forms.py:60-67 | The name the form sets is the one the model's save recomputes, and it is the user's full name. |
| Permissions.IsAuthorisedUser | work_tracker/apps/api/permissions.py:4-14 | A request is refused exactly when its method is POST, PATCH, PUT or DELETE and the user is neither staff nor superuser. |
| Permissions.ProjectSpecificTasks | work_tracker/apps/api/permissions.py:17-27 | Staff and superusers see every task. Anyone else sees a task exactly when its project is one of theirs. |
| Permissions.UserSpecificEntries | work_tracker/apps/api/permissions.py:30-39 | Corrected: staff and superusers see every entry. Anyone else sees an entry exactly when its task is theirs. |
| Permissions.UserSpecificEntriesAsWritten | work_tracker/apps/api/permissions.py:36-39 | As written: staff and superusers are let through, and for anyone else reading `entries` off the user crashes the request. |
| Permissions.OwnEntryCrashesAsWritten | work_tracker/apps/api/permissions.py:36-39 | An ordinary user asking for an entry of their own task crashes as written and is let in once corrected. |
| Permissions.EntryRulesAgreeWhenPrivileged | work_tracker/apps/api/permissions.py:36-39 | Wherever the rule as written reaches a verdict, the corrected rule gives the same one. |
| Permissions.EntryAccessMatchesStart | work_tracker/apps/api/permissions.py:30-39 | An ordinary user sees exactly the entries whose task the start request would accept from them. |
| Permissions.OrdinaryUserReadsOnly | work_tracker/apps/api/permissions.py:9-14 | An ordinary user may use any method but the four protected ones. The comparison is case-sensitive. |
| Permissions.TaskAccessMonotone | work_tracker/apps/api/permissions.py:24-27 | Gaining projects or privileges never loses access to a task. |
| SerializerSelection.FirstConfigured | work_tracker/apps/api/mixins.py:11-15 | The first of the candidate actions that has a serializer, if any. |
| SerializerSelection.Select | work_tracker/apps/api/mixins.py:9-19 | The result is the fallback or a configured serializer. A configured action gets its own serializer, and an unconfigured or empty one gets the fallback. |
| SerializerSelection.MetadataBorrows | work_tracker/apps/api/mixins.py:11-17 | A metadata request uses the serializer of `create`, else `update`, else `list`, whichever is configured first. |
| SerializerSelection.MetadataFallsBack | work_tracker/apps/api/mixins.py:9-19 | With none of those configured, a metadata request gets its own serializer if configured, else the fallback. |

## Left out

- HTTP, views, URL routing and the ORM are left out. Each task's owner is passed in as a map, and a
  user's tasks as a set.
- The clock is a parameter `now`. The hourly rate of a task's owner is a parameter `rate`, so a user
  with no rate is not modelled; there the source would fail on `None`.
- Times are whole seconds. Sub-second times are not modelled, and neither is the `Decimal` of a
  float quotient.
- Billables.HoursIncrement: rounds the exact quotient, where the code rounds the binary float
  `total_seconds / 3600`. The two agree unless the float's error crosses a rounding boundary, and no
  whole second lies on a tie (`Billables.HoursNeverTie`).
- Parsing of datetimes, UUIDs and decimals from request text is left out. An unparsable value, or a
  decimal with too many digits, is carried as `Malformed` with its field's message, which the model
  does not compute.
- UserForms.CreateAsWritten: rates are whole cents, so the crash is shown only for a negative rate;
  a rate that is not a number or has more than two decimal places crashes in the same way.
- The entry update endpoint always validates partially, and that is modelled. Partial updates of
  other resources are left out, as are the ids, `created_at` and `modified_at` columns, and the
  CRUD serializers for companies, projects, tasks and users.
- Registration, token login, password hashing, email normalisation and uniqueness are left out, as
  are the `password1`/`password2` checks of Django's user creation form.
- The model-level digit limit of `rate` in the user create form is left out; only `min_value=0` and
  `clean` are modelled.
- Permission denial messages are constant strings and are not modelled.
- Text is ASCII: `lower`, `strip` and `isdigit` are not modelled for other characters.
- Concurrent updates of one entry are the caller's concern, and are left out.
- EntryAdminForm.Saved: the form bills `round(Decimal(float hours) * rate, 2)`. On a half-cent tie
  the float's binary error decides the rounding; 18 seconds at 100 cents an hour bills 1 cent there
  and 0 here. The model rounds the exact product half to even.
- EntryAdminForm.AgreesWithManualEntry: holds of the model only, because the form's bill is
  computed from float hours and can differ by a cent on a tie.
- LegacyEntryApi.Transition: bills through `Decimal(float hours)` in the source, so it shares the
  half-cent difference described for EntryAdminForm.Saved.
- LegacyEntryApi.Update: applies LegacyEntryApi.Transition and so shares the same difference.
- LegacyEntryApi.CreateManual: shares the same difference in its bill. The older backfill view
  also never saves the entry it builds; the model returns that entry.
- LegacyEntryApi.ManualEntryDiffers: the equality of totals holds of the model only, because of
  the same difference.
- Billables.Accumulate, EntryApi.Apply, EntryApi.CreateManual: totals too wide for their columns
  (Models.Storable) are refused by the database when saved. The model returns the entry and does
  not check the widths.
- EnumFields.ConstructMessage: the message for bad listed fields prints a Python set, whose order
  depends on the interpreter's hash seed. The model fixes one order.

## Findings

| source | as written | input that shows it | evidently intended | confidence | as-written member | corrected member |
|---|---|---|---|---|---|---|
| work_tracker/apps/tracker/api/serializers.py:24-179 | The action, an enumeration member, is compared with the strings `"PAUSE"` and `"UNPAUSE"`, which never match. So every accepted update reaches the completing branch. Its billing adds a float to the stored `Decimal` hours and raises `TypeError`, and nothing is saved. | A pause of an active entry at its start + 1h | A pause records the pause and leaves the entry paused, with the hours added exactly | high; not executed | LegacyEntryApi.UpdateAsWritten | LegacyEntryApi.Update |
| work_tracker/apps/users/forms.py:43-58 | Any rate its field refuses (negative, not a number, or with more than two decimal places) is dropped from the cleaned data; `clean` then reads `cd["rate"]` and raises `KeyError`. The model's rates are whole cents, so only the negative case is exhibited | An ordinary user with rate -1 | A field error on `rate` | high; not executed | UserForms.CreateAsWritten | UserForms.Create |
| work_tracker/apps/tracker/forms.py:14-20 | `clean` reads both times from the cleaned data; if either field failed, it raises `KeyError` | An entry submitted without a start time | A field error saying the start time is required | high; not executed | EntryAdminForm.Add | EntryAdminForm.AddChecked |
| work_tracker/apps/tracker/api/serializers.py:206-222 | The backfill serializer never sets `self.user`, so the task-id validator raises `AttributeError`. Were it set, reading `entries` off the user would raise in the same way. | Any request with a task id | The task's owner checked against the requester, and a billed entry created | high; not executed | LegacyEntryApi.CreateManualAsWritten | LegacyEntryApi.CreateManual |
| work_tracker/apps/api/permissions.py:38 | For a user who is neither staff nor superuser the rule reads `request.user.entries`, a relation the user model does not have, and raises `AttributeError`. The entry view runs this check in `get_object` (work_tracker/apps/api/components/tracker/views.py:86-89) before building the update serializer, so as written an ordinary user can neither see nor pause, resume or complete any entry; `EntryApi.Update` is reached only by staff and superusers | An ordinary user asking for the detail of an entry of their own task | The entry's task's user compared with the requester, as the integration tests expect | high; not executed | Permissions.UserSpecificEntriesAsWritten | Permissions.UserSpecificEntries |
| work_tracker/apps/tracker/api/serializers.py:111-117 | The older start's task-id validator reads `self.user.entries`, which does not exist, and raises `AttributeError` | Any start request with a task id | The task's owner checked against the requester, as the current start does | high; not executed | LegacyEntryApi.CreateAsWritten | LegacyEntryApi.Create |

=== FILE: billables.dfy ===
/**
 * The billables calculator: for one interval of an entry, the elapsed seconds, the hours rounded
 * to six decimal places and the bill rounded to two, each added to the entry's running totals.
 * Rounding is per interval, with Python's `Decimal` rounding (half to even).
 */
module Billables {
  import opened Models

  function Abs(x: int): nat {
    if x < 0 then -x else x
  }

  /**
   * `n / d` rounded to the nearest integer, halves to the even neighbour: the result is within half
   * a unit of the quotient, and on an exact half it is even.
   */
  function RoundHalfEven(n: int, d: int): (r: int)
    requires d > 0
    ensures 2 * Abs(n - r * d) <= d
    ensures 2 * Abs(n - r * d) == d ==> r % 2 == 0
  {
    var q, m := n / d, n % d;
    assert n == q * d + m;
    assert (q + 1) * d == q * d + d;
    if 2 * m < d then q
    else if 2 * m > d then q + 1
    else if q % 2 == 0 then q
    else q + 1
  }

  /** The rounding is the only integer with those two properties. */
  lemma RoundHalfEvenUnique(n: int, d: int, r: int)
    requires d > 0
    requires 2 * Abs(n - r * d) <= d
    requires 2 * Abs(n - r * d) == d ==> r % 2 == 0
    ensures r == RoundHalfEven(n, d)
  {
    var s := RoundHalfEven(n, d);
    if r > s {
      TiesApart(n, d, r, s);
    } else if s > r {
      TiesApart(n, d, s, r);
    }
  }

  /** Two integers both within half a unit of `n / d` are neighbours, and both are ties. */
  lemma TiesApart(n: int, d: int, hi: int, lo: int)
    requires d > 0 && hi > lo
    requires 2 * Abs(n - hi * d) <= d && 2 * Abs(n - lo * d) <= d
    ensures hi == lo + 1
    ensures 2 * Abs(n - hi * d) == d && 2 * Abs(n - lo * d) == d
  {
    var k := hi - lo;
    assert (n - lo * d) - (n - hi * d) == k * d;
    MultipleAtLeast(k, d);
    if k >= 2 {
      MultipleAtLeast(k - 1, d);
    }
  }

  lemma MultipleAtLeast(k: int, d: int)
    requires k >= 1 && d > 0
    ensures k * d >= d
  {
  }

  /** The hours of `seconds` in micro-hours: `round(seconds / 3600, 6)`. */
  function HoursIncrement(seconds: int): (h: int)
    ensures 2 * Abs(seconds * MicroHoursPerHour - h * SecondsPerHour) < SecondsPerHour
  {
    var h := RoundHalfEven(seconds * MicroHoursPerHour, SecondsPerHour);
    assert 2 * Abs(seconds * MicroHoursPerHour - h * SecondsPerHour) != SecondsPerHour;
    h
  }

  /** The bill in cents for `microHours` at `rate` cents per hour: `round(hours * rate, 2)`. */
  function BillIncrement(microHours: int, rate: int): (b: int)
    ensures 2 * Abs(microHours * rate - b * MicroHoursPerHour) <= MicroHoursPerHour
    ensures 2 * Abs(microHours * rate - b * MicroHoursPerHour) == MicroHoursPerHour ==> b % 2 == 0
  {
    RoundHalfEven(microHours * rate, MicroHoursPerHour)
  }

  /**
   * `calculate_billables(entry, start, end)`: the interval's seconds, rounded hours, and bill on the
   * rounded hours at the task owner's `rate` are added to the entry; nothing else changes.
   */
  function Accumulate(e: Entry, start: Instant, end: Instant, rate: int): (r: Entry)
    ensures r.(totalTime := e.totalTime, hours := e.hours, bill := e.bill) == e
    ensures r.totalTime - e.totalTime == end - start
    ensures 2 * Abs((end - start) * MicroHoursPerHour - (r.hours - e.hours) * SecondsPerHour) < SecondsPerHour
    ensures 2 * Abs((r.hours - e.hours) * rate - (r.bill - e.bill) * MicroHoursPerHour) <= MicroHoursPerHour
    ensures 2 * Abs((r.hours - e.hours) * rate - (r.bill - e.bill) * MicroHoursPerHour) == MicroHoursPerHour ==>
              (r.bill - e.bill) % 2 == 0
  {
    var seconds := end - start;
    var hours := HoursIncrement(seconds);
    var bill := BillIncrement(hours, rate);
    e.(totalTime := e.totalTime + seconds, hours := e.hours + hours, bill := e.bill + bill)
  }

  /** No interval of whole seconds lands on a rounding tie, so the hours are the nearest micro-hour. */
  lemma HoursNeverTie(seconds: int, h: int)
    ensures 2 * Abs(seconds * MicroHoursPerHour - h * SecondsPerHour) != SecondsPerHour
  {
  }

  /** A non-negative interval gives non-negative hours, and those at a non-negative rate a non-negative bill. */
  lemma IncrementsNonNegative(seconds: int, rate: int)
    requires seconds >= 0 && rate >= 0
    ensures HoursIncrement(seconds) >= 0
    ensures BillIncrement(HoursIncrement(seconds), rate) >= 0
  {
    var h := HoursIncrement(seconds);
    assert h >= 0;
    assert h * rate >= 0;
  }

  /** Over an interval that does not run backwards, at a rate that is not negative, no total decreases. */
  lemma AccumulateMonotone(e: Entry, start: Instant, end: Instant, rate: int)
    requires start <= end && rate >= 0
    ensures Accumulate(e, start, end, rate).totalTime >= e.totalTime
    ensures Accumulate(e, start, end, rate).hours >= e.hours
    ensures Accumulate(e, start, end, rate).bill >= e.bill
  {
    IncrementsNonNegative(end - start, rate);
  }

  /** An interval of whole hours is billed exactly: `k` hours at `rate` is `k * rate`. */
  lemma WholeHours(k: int, rate: int)
    ensures HoursIncrement(k * SecondsPerHour) == k * MicroHoursPerHour
    ensures BillIncrement(k * MicroHoursPerHour, rate) == k * rate
  {
    var h := HoursIncrement(k * SecondsPerHour);
    assert k * SecondsPerHour * MicroHoursPerHour - (k * MicroHoursPerHour) * SecondsPerHour == 0;
    RoundHalfEvenUnique(k * SecondsPerHour * MicroHoursPerHour, SecondsPerHour, k * MicroHoursPerHour);
    assert (k * MicroHoursPerHour) * rate - (k * rate) * MicroHoursPerHour == 0;
    RoundHalfEvenUnique((k * MicroHoursPerHour) * rate, MicroHoursPerHour, k * rate);
  }

  /** Rounding two intervals separately is off from rounding their sum by at most one micro-hour. */
  lemma SplitRoundingWithinOne(a: int, b: int)
    ensures Abs(HoursIncrement(a) + HoursIncrement(b) - HoursIncrement(a + b)) <= 1
  {
    var ha, hb, hab := HoursIncrement(a), HoursIncrement(b), HoursIncrement(a + b);
    assert 3600 * Abs(ha + hb - hab) < 3 * 1800;
  }

  /** Per-interval rounding is not additive: two 2-second intervals round to more than one 4-second interval. */
  lemma SplitRoundingDiffers()
    ensures HoursIncrement(2) == 556 && HoursIncrement(4) == 1111
    ensures HoursIncrement(2) + HoursIncrement(2) != HoursIncrement(2 + 2)
  {
    RoundHalfEvenUnique(2 * MicroHoursPerHour, SecondsPerHour, 556);
    RoundHalfEvenUnique(4 * MicroHoursPerHour, SecondsPerHour, 1111);
  }
}

=== FILE: entry_admin_form.dfy ===
/**
 * The administration form for entries, used both to add an entry and to change a stored one: the
 * interval must run forwards, and the saved entry gets its totals for that one interval and is
 * complete. The form consults no clock.
 */
module EntryAdminForm {
  import opened Results
  import opened Validation
  import opened Enums
  import opened Models
  import opened Billables
  import EntryApi
  import Text

  const InvalidTaskMessage: string := "Select a valid choice. That choice is not one of the available choices."

  /** A required form field: a missing value is reported as required. */
  function RequiredError<T>(x: Option<T>): Option<string> {
    if x.None? then Some(RequiredMessage) else None
  }

  /** The task field: a required choice among the existing tasks. */
  function TaskError(task: Option<TaskId>, tasks: set<TaskId>): Option<string> {
    match task
    case None => Some(RequiredMessage)
    case Some(id) => if id !in tasks then Some(InvalidTaskMessage) else None
  }

  /**
   * The entry the form saves for a valid submission into `stored`, the entry being changed (or a
   * fresh entry when adding one): the form's four fields are written, the totals are replaced by
   * those of the one interval whatever was billed before, the entry is marked complete, and the
   * pause time is kept.
   */
  function Saved(stored: Entry, task: TaskId, start: Instant, end: Instant, comment: Option<string>, rate: int)
    : (e: Entry)
    ensures e.task == task && e.startTime == start && e.endTime == Some(end) && e.pauseTime == stored.pauseTime
    ensures e.comment == (if comment.Some? then Text.Strip(comment.value) else "")
    ensures e.status == EntryStatus.Complete
    ensures e.totalTime == end - start
    ensures e.hours == HoursIncrement(end - start)
    ensures e.bill == BillIncrement(HoursIncrement(end - start), rate)
  {
    var seconds := end - start;
    var hours := HoursIncrement(seconds);
    var text := if comment.Some? then Text.Strip(comment.value) else "";
    stored.(task := task, comment := text, startTime := start, endTime := Some(end),
            totalTime := seconds, hours := hours, bill := BillIncrement(hours, rate), status := EntryStatus.Complete)
  }

  /**
   * Saving over a stored entry keeps nothing of it but its pause time: in particular whatever was
   * billed before is discarded, not added to.
   */
  lemma SavedKeepsOnlyPause(a: Entry, b: Entry, task: TaskId, start: Instant, end: Instant,
                            comment: Option<string>, rate: int)
    ensures Saved(a, task, start, end, comment, rate) == Saved(b, task, start, end, comment, rate)
                                                           .(pauseTime := a.pauseTime)
  {
  }

  /**
   * Submitting the form as written. The object-level check reads both times unconditionally, so a
   * submission whose start or end time failed its own field check raises a `KeyError` instead of
   * reporting the field.
   */
  function Add(stored: Entry, task: Option<TaskId>, start: Option<Instant>, end: Option<Instant>, comment: Option<string>,
               tasks: set<TaskId>, rate: int): (r: Result<Entry, Rejection>)
    ensures start.None? ==> r == Err(Crash("KeyError: 'start_time'"))
    ensures start.Some? && end.None? ==> r == Err(Crash("KeyError: 'end_time'"))
    ensures start.Some? && end.Some? ==> r == AddChecked(stored, task, start, end, comment, tasks, rate)
  {
    if start.None? then Err(Crash("KeyError: 'start_time'"))
    else if end.None? then Err(Crash("KeyError: 'end_time'"))
    else AddChecked(stored, task, start, end, comment, tasks, rate)
  }

  /**
   * Submitting the form with the object-level check skipped when a time is missing, so that every
   * failing field is reported. It accepts exactly a known task and an interval that runs forwards,
   * whatever the current time, and reports a backwards or empty interval on the start time.
   */
  function AddChecked(stored: Entry, task: Option<TaskId>, start: Option<Instant>, end: Option<Instant>, comment: Option<string>,
                      tasks: set<TaskId>, rate: int): (r: Result<Entry, Rejection>)
    ensures r.Ok? <==> task.Some? && task.value in tasks && start.Some? && end.Some? && start.value < end.value
    ensures r.Err? ==> r.error.FieldErrors?
    ensures task.None? ==> Reports(r, "task", RequiredMessage)
    ensures task.Some? && task.value !in tasks ==> Reports(r, "task", InvalidTaskMessage)
    ensures start.None? ==> Reports(r, "start_time", RequiredMessage)
    ensures end.None? ==> Reports(r, "end_time", RequiredMessage)
    ensures start.Some? && end.Some? && start.value >= end.value ==>
              Reports(r, "start_time", EntryApi.StartAfterEndMessage)
    ensures r.Ok? ==> r.value == Saved(stored, task.value, start.value, end.value, comment, rate)
  {
    var checks := [("task", TaskError(task, tasks)),
                   ("start_time", RequiredError(start)),
                   ("end_time", RequiredError(end))];
    assert checks[0].0 == "task" && checks[1].0 == "start_time" && checks[2].0 == "end_time";
    var errors := Collect(checks);
    var interval: map<string, string> := if start.Some? && end.Some? && start.value >= end.value
                    then map["start_time" := EntryApi.StartAfterEndMessage] else map[];
    assert "task" !in interval && "end_time" !in interval;
    if errors == map[] && interval == map[] then Ok(Saved(stored, task.value, start.value, end.value, comment, rate))
    else Err(FieldErrors(errors + interval))
  }

  /** The two submissions agree whenever both times are given. */
  lemma AddAgreesWhenTimesGiven(stored: Entry, task: Option<TaskId>, start: Instant, end: Instant,
                                comment: Option<string>, tasks: set<TaskId>, rate: int)
    ensures Add(stored, task, Some(start), Some(end), comment, tasks, rate)
         == AddChecked(stored, task, Some(start), Some(end), comment, tasks, rate)
  {
  }

  /** A missing start time crashes the form as written but is reported by the checked form. */
  lemma MissingStartCrashes(stored: Entry, task: TaskId, end: Instant, tasks: set<TaskId>, rate: int)
    requires task in tasks
    ensures Add(stored, Some(task), None, Some(end), None, tasks, rate).error.Crash?
    ensures AddChecked(stored, Some(task), None, Some(end), None, tasks, rate)
         == Err(FieldErrors(map["start_time" := RequiredMessage]))
  {
    var checks := [("task", TaskError(Some(task), tasks)),
                   ("start_time", RequiredError<Instant>(None)),
                   ("end_time", RequiredError(Some(end)))];
    assert checks[0].0 == "task" && checks[1].0 == "start_time" && checks[2].0 == "end_time";
    var errors := Collect(checks);
    assert errors == map["start_time" := RequiredMessage];
    assert errors + map[] == errors;
  }

  /** The form's optional comment as the manual-entry endpoint receives it: an empty one is not sent. */
  function CommentInput(comment: Option<string>): Input<string> {
    if comment.Some? then Given(comment.value) else Absent
  }

  /**
   * Adding through the form and through the manual-entry endpoint saves the same entry for the same
   * interval, comment and rate; the endpoint additionally refuses an interval that reaches into the
   * future.
   */
  lemma AgreesWithManualEntry(stored: Entry, task: TaskId, start: Instant, end: Instant, comment: Option<string>,
                              now: Instant, tasks: set<TaskId>, userTasks: set<TaskId>, rate: int)
    requires stored.pauseTime.None?
    requires task in tasks && task in userTasks
    requires start < end <= now
    requires comment.Some? ==> !Text.Blank(comment.value)
    ensures Add(stored, Some(task), Some(start), Some(end), comment, tasks, rate).Ok?
    ensures EntryApi.CreateManual(Given(task), Given(start), Given(end), CommentInput(comment), now, userTasks, rate)
         == Add(stored, Some(task), Some(start), Some(end), comment, tasks, rate)
  {
    ManualEntrySaved(stored, task, start, end, comment, now, userTasks, rate);
    assert Add(stored, Some(task), Some(start), Some(end), comment, tasks, rate)
        == Ok(Saved(stored, task, start, end, comment, rate));
  }

  /** The manual-entry endpoint's entry for a valid past interval is the one the form saves into a fresh entry. */
  lemma ManualEntrySaved(stored: Entry, task: TaskId, start: Instant, end: Instant, comment: Option<string>,
                         now: Instant, userTasks: set<TaskId>, rate: int)
    requires stored.pauseTime.None?
    requires task in userTasks
    requires start < end <= now
    requires comment.Some? ==> !Text.Blank(comment.value)
    ensures EntryApi.CreateManual(Given(task), Given(start), Given(end), CommentInput(comment), now, userTasks, rate)
         == Ok(Saved(stored, task, start, end, comment, rate))
  {
    var m := EntryApi.CreateManual(Given(task), Given(start), Given(end), CommentInput(comment), now, userTasks, rate);
    assert m.Ok?;
    var e, f := m.value, Saved(stored, task, start, end, comment, rate);
    assert e.task == f.task && e.comment == f.comment && e.startTime == f.startTime;
    assert e.pauseTime == f.pauseTime && e.endTime == f.endTime && e.status == f.status;
    assert e.totalTime == f.totalTime && e.hours == f.hours && e.bill == f.bill;
  }

  /** The form accepts an interval in the future, which the manual-entry endpoint refuses. */
  lemma FutureIntervalAccepted(stored: Entry, task: TaskId, start: Instant, end: Instant, now: Instant,
                               tasks: set<TaskId>, userTasks: set<TaskId>, rate: int)
    requires task in tasks && task in userTasks && now < start < end
    ensures Add(stored, Some(task), Some(start), Some(end), None, tasks, rate).Ok?
    ensures EntryApi.CreateManual(Given(task), Given(start), Given(end), Absent, now, userTasks, rate)
         == Err(FieldErrors(map[NonFieldErrors := EntryApi.FutureIntervalMessage]))
  {
  }

  /** Whole hours are saved exactly: two hours is 7200 seconds, 2.000000 hours and twice the rate. */
  lemma WholeHoursSaved(stored: Entry, task: TaskId, start: Instant, k: nat, tasks: set<TaskId>, rate: int)
    requires task in tasks && k > 0
    ensures Add(stored, Some(task), Some(start), Some(start + k * SecondsPerHour), None, tasks, rate).Ok?
    ensures var e := Add(stored, Some(task), Some(start), Some(start + k * SecondsPerHour), None, tasks, rate).value;
      e.totalTime == k * SecondsPerHour && e.hours == k * MicroHoursPerHour && e.bill == k * rate
  {
    WholeHours(k, rate);
  }

  /**
   * Changing an entry that was paused and billed before: the form completes it over the new
   * interval alone, keeps its old pause time, and drops what was billed up to the pause.
   */
  lemma ChangeDiscardsEarlierBilling(stored: Entry, task: TaskId, start: Instant, end: Instant,
                                     tasks: set<TaskId>, rate: int)
    requires stored.status == Paused && stored.pauseTime.Some? && stored.totalTime > 0
    requires task in tasks && start < end
    ensures Add(stored, Some(task), Some(start), Some(end), None, tasks, rate).Ok?
    ensures var e := Add(stored, Some(task), Some(start), Some(end), None, tasks, rate).value;
      && e.status == EntryStatus.Complete && e.pauseTime == stored.pauseTime
      && e.totalTime == end - start && e.totalTime != stored.totalTime + (end - start)
  {
  }
}

=== FILE: entry_api.dfy ===
/**
 * The entry endpoints of the current API: starting an entry live, pausing, resuming and completing
 * it, and adding a finished entry by hand. Every check runs before any field is written, so each
 * request is a pure function from the stored entry and the request to a new entry or a rejection.
 *
 * Checks run in the order of the serializer framework: a refusal in the update serializer's
 * constructor comes first and alone; then every field validator runs and their errors are reported
 * together; the object-level `validate` runs only when no field failed.
 */
module EntryApi {
  import opened Results
  import opened Validation
  import opened Enums
  import opened Models
  import opened Billables
  import EnumFields
  import Text

  const FutureStartMessage: string := "An Entry's start time may not exceed the current time."
  const NotAssignedMessage: string := "The selected task has not been assigned to you."
  const NoSuchTaskMessage: string := "The selected task does not exist."
  const CompletedMessage: string := "You cannot edit an already completed entry."
  const PauseNotActiveMessage: string := "You cannot pause an entry that is not active."
  const ResumeActiveMessage: string := "You cannot resume an already active entry."
  const PrecedesStartMessage: string := "An Entry's pause/completion time cannot precede its start time."
  const FutureIntervalMessage: string := "The selected start_time/end_time values may not exceed the current time."
  const StartAfterEndMessage: string := "An Entry's start time may not exceed its end time."

  /** The states an entry can reach through the endpoints. */
  predicate Consistent(e: Entry) {
    && (e.status == Active ==> e.pauseTime.None? && e.endTime.None?)
    && (e.status == Paused ==> e.pauseTime.Some? && e.startTime <= e.pauseTime.value && e.endTime.None?)
    && (e.status == EntryStatus.Complete ==> e.endTime.Some? && e.startTime <= e.endTime.value)
    && e.totalTime >= 0 && e.hours >= 0 && e.bill >= 0
  }

  /** `r` is `e` with the billables of an interval of `seconds` added. */
  predicate Billed(e: Entry, r: Entry, seconds: int, rate: int) {
    && r.totalTime == e.totalTime + seconds
    && r.hours == e.hours + HoursIncrement(seconds)
    && r.bill == e.bill + BillIncrement(HoursIncrement(seconds), rate)
  }

  /** `r` carries the totals of `e` unchanged. */
  predicate Unbilled(e: Entry, r: Entry) {
    r.totalTime == e.totalTime && r.hours == e.hours && r.bill == e.bill
  }

  // ---------------------------------------------------------------------------------------------
  // Live creation

  /** The required task-id field and its validator: the task must exist and belong to the requester. */
  function TaskIdError(taskId: Input<TaskId>, owners: map<TaskId, UserId>, requester: UserId): Option<string> {
    match taskId
    case Given(id) =>
      if id !in owners then Some(NoSuchTaskMessage)
      else if owners[id] != requester then Some(NotAssignedMessage)
      else None
    case _ => InputError(taskId, true)
  }

  /** The required start-time field and its validator: a start may equal the current time but not exceed it. */
  function StartTimeError(start: Input<Instant>, now: Instant): Option<string> {
    match start
    case Given(s) => if s > now then Some(FutureStartMessage) else None
    case _ => InputError(start, true)
  }

  /**
   * Starting an entry live. `owners` maps each existing task to its user; `now` is the server clock.
   * A new entry is active, unpaused, unfinished and has nothing billed.
   */
  function Create(taskId: Input<TaskId>, start: Input<Instant>, now: Instant,
                  owners: map<TaskId, UserId>, requester: UserId): (r: Result<Entry, Rejection>)
    ensures r.Ok? <==> (&& taskId.Given? && taskId.value in owners && owners[taskId.value] == requester
                        && start.Given? && start.value <= now)
    ensures taskId.Absent? ==> Reports(r, "task_id", RequiredMessage)
    ensures taskId.Null? ==> Reports(r, "task_id", NullMessage)
    ensures taskId.Malformed? ==> Reports(r, "task_id", taskId.message)
    ensures taskId.Given? && taskId.value !in owners ==> Reports(r, "task_id", NoSuchTaskMessage)
    ensures taskId.Given? && taskId.value in owners && owners[taskId.value] != requester ==>
              Reports(r, "task_id", NotAssignedMessage)
    ensures start.Absent? ==> Reports(r, "start_time", RequiredMessage)
    ensures start.Null? ==> Reports(r, "start_time", NullMessage)
    ensures start.Malformed? ==> Reports(r, "start_time", start.message)
    ensures start.Given? && start.value > now ==> Reports(r, "start_time", FutureStartMessage)
    ensures r.Err? ==> r.error.FieldErrors? && r.error.fields.Keys <= {"task_id", "start_time"}
    ensures r.Ok? ==> (&& r.value.task == taskId.value && r.value.startTime == start.value
                       && r.value.status == Active && r.value.pauseTime.None? && r.value.endTime.None?
                       && r.value.totalTime == 0 && r.value.hours == 0 && r.value.bill == 0
                       && Consistent(r.value))
  {
    var checks := [("task_id", TaskIdError(taskId, owners, requester)),
                   ("start_time", StartTimeError(start, now))];
    assert checks[0].0 == "task_id" && checks[1].0 == "start_time";
    var errors := Collect(checks);
    if errors != map[] then Err(FieldErrors(errors))
    else Ok(NewEntry(taskId.value, "", start.value, None))
  }

  // ---------------------------------------------------------------------------------------------
  // Pause, resume, complete

  /** The action field: an enumeration field over `EntryAction` with its default arguments. */
  function ActionField(): EnumFields.Config {
    EnumFields.Config(EntryActionDecl(), "label", "name", [], EntryActionDecl().members, false)
  }

  /** The action field is what the field constructor builds from the default arguments. */
  lemma ActionFieldConstructed()
    ensures EnumFields.NewField(EntryActionDecl(), "label", "name", [], None, false) == Ok(ActionField())
    ensures EnumFields.ValidConfig(ActionField()) && EnumFields.WellFormed(ActionField().decl)
  {
    EntryActionClosed(Pause);
  }

  /**
   * Reading a sent action: the input must be an action's name (or an action itself), and anything
   * else is an invalid choice.
   */
  function ParseAction(v: EnumFields.PyVal): (r: Result<EntryAction, string>)
    ensures r.Ok? ==> v == EnumFields.PStr(r.value.Name()) || v == EnumFields.PMember(r.value.AsMember())
    ensures r.Err? ==> r.error == EnumFields.InvalidChoiceMessage(v)
  {
    match EnumFields.ToInternalValue(ActionField(), v)
    case Ok(Some(m)) =>
      if m == Pause.AsMember() then Ok(Pause)
      else if m == Resume.AsMember() then Ok(Resume)
      else if m == EntryAction.Complete.AsMember() then Ok(EntryAction.Complete)
      else Err(EnumFields.InvalidChoiceMessage(v))
    case _ => Err(EnumFields.InvalidChoiceMessage(v))
  }

  /** Every action is read back from its name. */
  lemma ParseActionName(a: EntryAction)
    ensures ParseAction(EnumFields.PStr(a.Name())) == Ok(a)
  {
    var c, m := ActionField(), a.AsMember();
    ActionFieldConstructed();
    assert m in c.enumChoices by {
      EntryActionClosed(a);
    }
    EnumFields.NameRoundTrip(c, m);
    ParseActionMember(EnumFields.PStr(a.Name()), a);
  }

  /** An input the action field reads as an action's member is read as that action. */
  lemma ParseActionMember(v: EnumFields.PyVal, a: EntryAction)
    requires EnumFields.ToInternalValue(ActionField(), v) == Ok(Some(a.AsMember()))
    ensures ParseAction(v) == Ok(a)
  {
  }

  /** A string that is not an action's name (a label, or a name in lower case) is refused. */
  lemma ParseActionUnknown(s: string)
    requires s != "PAUSE" && s != "RESUME" && s != "COMPLETE"
    ensures ParseAction(EnumFields.PStr(s)) == Err(EnumFields.InvalidChoiceMessage(EnumFields.PStr(s)))
  {
    var ms := ActionField().enumChoices;
    assert forall i :: 0 <= i < |ms| ==> ms[i].name != s;
    EnumFields.UnknownNameRejected(ActionField(), s);
  }

  /**
   * The effect of an accepted action. Pausing records the pause and bills the time since the
   * start; resuming restarts the clock at `t` and bills nothing; completing an active entry bills
   * the time since the start and ends it at `t`; completing a paused entry ends it at its pause
   * and bills nothing more.
   */
  function Transition(e: Entry, a: EntryAction, t: Instant, rate: int): (r: Entry)
    ensures r.task == e.task && r.comment == e.comment
    ensures a == Pause ==> (&& r.status == Paused && r.pauseTime == Some(t)
                            && r.startTime == e.startTime && r.endTime == e.endTime
                            && Billed(e, r, t - e.startTime, rate))
    ensures a == Resume ==> (&& r.status == Active && r.startTime == t && r.pauseTime.None?
                             && r.endTime == e.endTime && Unbilled(e, r))
    ensures a == EntryAction.Complete && e.status == Active ==>
              (&& r.status == EntryStatus.Complete && r.endTime == Some(t)
               && r.startTime == e.startTime && r.pauseTime == e.pauseTime
               && Billed(e, r, t - e.startTime, rate))
    ensures a == EntryAction.Complete && e.status != Active ==>
              (&& r.status == EntryStatus.Complete && r.endTime == e.pauseTime
               && r.startTime == e.startTime && r.pauseTime == e.pauseTime && Unbilled(e, r))
  {
    match a
    case Pause =>
      Accumulate(e.(pauseTime := Some(t), status := Paused), e.startTime, t, rate)
    case Resume =>
      e.(startTime := t, pauseTime := None, status := Active)
    case Complete =>
      if e.status == Active then
        Accumulate(e, e.startTime, t, rate).(endTime := Some(t), status := EntryStatus.Complete)
      else
        e.(endTime := e.pauseTime, status := EntryStatus.Complete)
  }

  /** The object-level check: pause only an active entry, resume only a paused one. */
  function ActionError(e: Entry, a: EntryAction): Option<string> {
    if a == Pause && e.status != Active then Some(PauseNotActiveMessage)
    else if a == Resume && e.status != Paused then Some(ResumeActiveMessage)
    else None
  }

  /** The action field of a partial update: skipped when not sent, otherwise read as an action. */
  function ActionInputError(action: Input<EnumFields.PyVal>): Option<string> {
    match action
    case Given(v) => if ParseAction(v).Err? then Some(ParseAction(v).error) else None
    case _ => InputError(action, false)
  }

  /**
   * The entry-time field of a partial update and its validator: skipped when not sent; an entry
   * time may equal the start but not precede it.
   */
  function EntryTimeError(e: Entry, entryTime: Input<Instant>): Option<string> {
    match entryTime
    case Given(t) => if t < e.startTime then Some(PrecedesStartMessage) else None
    case _ => InputError(entryTime, false)
  }

  /**
   * The field errors of an update request from the outcome of each field's own check: exactly the
   * fields whose check failed are reported, each with that check's message.
   */
  function UpdateFieldErrors(actionError: Option<string>, entryTimeError: Option<string>, billError: Option<string>)
    : (m: map<string, string>)
    ensures m == map[] <==> actionError.None? && entryTimeError.None? && billError.None?
    ensures actionError.Some? ==> "action" in m && m["action"] == actionError.value
    ensures entryTimeError.Some? ==> "entry_time" in m && m["entry_time"] == entryTimeError.value
    ensures billError.Some? ==> "bill" in m && m["bill"] == billError.value
    ensures m.Keys <= {"action", "entry_time", "bill"}
  {
    var checks := [("action", actionError), ("entry_time", entryTimeError), ("bill", billError)];
    assert checks[0].0 == "action" && checks[1].0 == "entry_time" && checks[2].0 == "bill";
    Collect(checks)
  }

  const MissingActionCrash: string := "KeyError: 'action'"
  const MissingEntryTimeCrash: string := "KeyError: 'entry_time'"

  /**
   * An update request for `e` with a raw `action`, `entryTime` and `bill`; `rate` is the hourly rate
   * of the task's user. The view always validates an update as partial, so a field that was not sent
   * is skipped rather than required, while a null or malformed one is still reported on its field.
   * The object-level check then reads the action unconditionally, and the update reads the entry time
   * unconditionally, and either lookup of a field that was not sent raises `KeyError`.
   *
   * `bill` is writable because the serializer lists the model's column without declaring it, so it
   * gets the column's decimal field. Any input that field refuses (not a number, or too many digits
   * before or after the point) is `Malformed` with the field's message; a bill it accepts is
   * `Given` and then ignored, as the update never reads it.
   */
  function Update(e: Entry, action: Input<EnumFields.PyVal>, entryTime: Input<Instant>, bill: Input<int>, rate: int)
    : (r: Result<Entry, Rejection>)
    ensures e.status == EntryStatus.Complete ==> r == Err(Detail(CompletedMessage))
    ensures e.status != EntryStatus.Complete && action.Null? ==> Reports(r, "action", NullMessage)
    ensures e.status != EntryStatus.Complete && action.Malformed? ==> Reports(r, "action", action.message)
    ensures e.status != EntryStatus.Complete && action.Given? && ParseAction(action.value).Err? ==>
              Reports(r, "action", ParseAction(action.value).error)
    ensures e.status != EntryStatus.Complete && entryTime.Null? ==> Reports(r, "entry_time", NullMessage)
    ensures e.status != EntryStatus.Complete && entryTime.Malformed? ==> Reports(r, "entry_time", entryTime.message)
    ensures e.status != EntryStatus.Complete && entryTime.Given? && entryTime.value < e.startTime ==>
              Reports(r, "entry_time", PrecedesStartMessage)
    ensures e.status != EntryStatus.Complete && bill.Null? ==> Reports(r, "bill", NullMessage)
    ensures e.status != EntryStatus.Complete && bill.Malformed? ==> Reports(r, "bill", bill.message)
    ensures (&& e.status != EntryStatus.Complete && action.Absent? && (bill.Absent? || bill.Given?)
             && (entryTime.Absent? || (entryTime.Given? && entryTime.value >= e.startTime))) ==>
              r == Err(Crash(MissingActionCrash))
    ensures (&& e.status != EntryStatus.Complete && action.Given? && ParseAction(action.value).Ok?
             && entryTime.Absent? && (bill.Absent? || bill.Given?) && ActionError(e, ParseAction(action.value).value).None?) ==>
              r == Err(Crash(MissingEntryTimeCrash))
    ensures r.Ok? <==> (&& action.Given? && entryTime.Given? && ParseAction(action.value).Ok? && !bill.Null? && !bill.Malformed?
                        && Apply(e, ParseAction(action.value).value, entryTime.value, rate).Ok?)
    ensures r.Ok? ==> Apply(e, ParseAction(action.value).value, entryTime.value, rate) == r
  {
    if e.status == EntryStatus.Complete then Err(Detail(CompletedMessage))
    else
      var errors := UpdateFieldErrors(ActionInputError(action), EntryTimeError(e, entryTime), InputError(bill, false));
      if errors != map[] then Err(FieldErrors(errors))
      else Validated(e, action, entryTime, rate)
  }

  /**
   * An update whose fields all passed their checks: the object-level check and then the update
   * itself, each reading a field that may not have been sent.
   */
  function Validated(e: Entry, action: Input<EnumFields.PyVal>, entryTime: Input<Instant>, rate: int)
    : (r: Result<Entry, Rejection>)
    requires e.status != EntryStatus.Complete
    requires ActionInputError(action).None? && EntryTimeError(e, entryTime).None?
    ensures action.Absent? ==> r == Err(Crash(MissingActionCrash))
    ensures action.Given? && entryTime.Absent? && ActionError(e, ParseAction(action.value).value).None? ==>
              r == Err(Crash(MissingEntryTimeCrash))
    ensures r.Ok? <==> (&& action.Given? && entryTime.Given?
                        && Apply(e, ParseAction(action.value).value, entryTime.value, rate).Ok?)
    ensures r.Ok? ==> Apply(e, ParseAction(action.value).value, entryTime.value, rate) == r
  {
    if !action.Given? then Err(Crash(MissingActionCrash))
    else
      var a := ParseAction(action.value).value;
      match ActionError(e, a)
      case Some(msg) => Err(FieldErrors(map[NonFieldErrors := msg]))
      case None =>
        if !entryTime.Given? then Err(Crash(MissingEntryTimeCrash))
        else Ok(Transition(e, a, entryTime.value, rate))
  }

  /** A request without an action crashes unless a given entry time is refused first. */
  lemma MissingActionCrashes(e: Entry, t: Instant, rate: int)
    requires e.status != EntryStatus.Complete && t >= e.startTime
    ensures Update(e, Absent, Given(t), Absent, rate) == Err(Crash(MissingActionCrash))
    ensures Update(e, Absent, Absent, Absent, rate) == Err(Crash(MissingActionCrash))
  {
  }

  /** A request that would pause an active entry but sends no entry time crashes. */
  lemma MissingEntryTimeCrashes(e: Entry, rate: int)
    requires e.status == Active
    ensures Update(e, Given(EnumFields.PStr("PAUSE")), Absent, Absent, rate) == Err(Crash(MissingEntryTimeCrash))
  {
    ParseActionName(Pause);
  }

  /** Unlike fields that were not sent, fields sent as null are reported, all three of them, and nothing crashes. */
  lemma NullFieldsReported(e: Entry, rate: int)
    requires e.status != EntryStatus.Complete
    ensures Update(e, Null, Null, Null, rate)
         == Err(FieldErrors(map["action" := NullMessage, "entry_time" := NullMessage, "bill" := NullMessage]))
  {
    var m := UpdateFieldErrors(Some(NullMessage), Some(NullMessage), Some(NullMessage));
    assert m.Keys == {"action", "entry_time", "bill"};
    assert m == map["action" := NullMessage, "entry_time" := NullMessage, "bill" := NullMessage];
  }

  /**
   * A bill the field accepts changes nothing: the request has the outcome it has without one. A
   * refused bill stops even a valid action from being applied.
   */
  lemma BillIgnored(e: Entry, action: Input<EnumFields.PyVal>, entryTime: Input<Instant>, b: int, rate: int)
    ensures Update(e, action, entryTime, Given(b), rate) == Update(e, action, entryTime, Absent, rate)
    ensures Update(e, action, entryTime, Null, rate).Err?
  {
    assert InputError<int>(Given(b), false) == InputError<int>(Absent, false);
  }

  /**
   * An update with an already-read action and entry time: the all-or-nothing state machine. A
   * completed entry is final; an entry time before the start is refused for every action; pause is
   * accepted only from active, resume only from paused, and complete from either.
   */
  function Apply(e: Entry, a: EntryAction, t: Instant, rate: int): (r: Result<Entry, Rejection>)
    ensures e.status == EntryStatus.Complete ==> r == Err(Detail(CompletedMessage))
    ensures e.status != EntryStatus.Complete && t < e.startTime ==>
              r == Err(FieldErrors(map["entry_time" := PrecedesStartMessage]))
    ensures e.status != EntryStatus.Complete && t >= e.startTime && a == Pause && e.status != Active ==>
              r == Err(FieldErrors(map[NonFieldErrors := PauseNotActiveMessage]))
    ensures e.status != EntryStatus.Complete && t >= e.startTime && a == Resume && e.status != Paused ==>
              r == Err(FieldErrors(map[NonFieldErrors := ResumeActiveMessage]))
    ensures r.Ok? <==> (&& e.status != EntryStatus.Complete && t >= e.startTime
                        && (a == Pause ==> e.status == Active) && (a == Resume ==> e.status == Paused))
    ensures r.Ok? ==> r.value == Transition(e, a, t, rate)
  {
    if e.status == EntryStatus.Complete then Err(Detail(CompletedMessage))
    else if t < e.startTime then Err(FieldErrors(map["entry_time" := PrecedesStartMessage]))
    else
      match ActionError(e, a)
      case Some(msg) => Err(FieldErrors(map[NonFieldErrors := msg]))
      case None => Ok(Transition(e, a, t, rate))
  }

  /** A request naming an action and an entry time is the state machine applied to them. */
  lemma UpdateByName(e: Entry, a: EntryAction, t: Instant, rate: int)
    ensures Update(e, Given(EnumFields.PStr(a.Name())), Given(t), Absent, rate) == Apply(e, a, t, rate)
  {
    ParseActionName(a);
    assert ActionInputError(Given(EnumFields.PStr(a.Name()))).None?;
    if e.status != EntryStatus.Complete && t < e.startTime {
      var m := UpdateFieldErrors(None, Some(PrecedesStartMessage), None);
      assert m.Keys == {"entry_time"};
      assert m == map["entry_time" := PrecedesStartMessage];
    }
  }

  /** An accepted action keeps an entry in a reachable state and bills nothing negative. */
  lemma ApplyPreservesConsistent(e: Entry, a: EntryAction, t: Instant, rate: int)
    requires Consistent(e) && rate >= 0
    requires Apply(e, a, t, rate).Ok?
    ensures Consistent(Apply(e, a, t, rate).value)
    ensures Apply(e, a, t, rate).value.totalTime >= e.totalTime
    ensures Apply(e, a, t, rate).value.hours >= e.hours
    ensures Apply(e, a, t, rate).value.bill >= e.bill
  {
    IncrementsNonNegative(t - e.startTime, rate);
  }

  /** One requested action and its entry time. */
  datatype Step = Step(action: EntryAction, time: Instant)

  /** A sequence of requests against one entry, stopping at the first refusal. */
  function Run(e: Entry, steps: seq<Step>, rate: int): (r: Result<Entry, Rejection>)
    ensures |steps| == 0 ==> r == Ok(e)
    ensures r.Ok? ==> r.value.task == e.task && r.value.comment == e.comment
    decreases |steps|
  {
    if |steps| == 0 then Ok(e)
    else
      match Apply(e, steps[0].action, steps[0].time, rate)
      case Err(x) => Err(x)
      case Ok(next) => Run(next, steps[1..], rate)
  }

  /** Any sequence of accepted requests keeps an entry reachable, and no total ever decreases. */
  lemma {:induction false} RunPreservesConsistent(e: Entry, steps: seq<Step>, rate: int)
    requires Consistent(e) && rate >= 0
    requires Run(e, steps, rate).Ok?
    ensures Consistent(Run(e, steps, rate).value)
    ensures Run(e, steps, rate).value.totalTime >= e.totalTime
    ensures Run(e, steps, rate).value.hours >= e.hours
    ensures Run(e, steps, rate).value.bill >= e.bill
    decreases |steps|
  {
    if |steps| > 0 {
      ApplyPreservesConsistent(e, steps[0].action, steps[0].time, rate);
      var next := Apply(e, steps[0].action, steps[0].time, rate).value;
      RunPreservesConsistent(next, steps[1..], rate);
    }
  }

  /** Once completed, an entry refuses every further request. */
  lemma {:induction false} CompletedIsFinal(e: Entry, steps: seq<Step>, rate: int)
    requires e.status == EntryStatus.Complete && |steps| > 0
    ensures Run(e, steps, rate) == Err(Detail(CompletedMessage))
  {
  }

  /**
   * Pausing, resuming and completing bills exactly the two worked intervals, each rounded on its
   * own: from the start to the pause, and from the resumption to the end.
   */
  lemma PauseResumeComplete(e: Entry, p: Instant, s: Instant, c: Instant, rate: int)
    requires e.status == Active && e.startTime <= p <= s <= c
    ensures Run(e, [Step(Pause, p), Step(Resume, s), Step(EntryAction.Complete, c)], rate).Ok?
    ensures var r := Run(e, [Step(Pause, p), Step(Resume, s), Step(EntryAction.Complete, c)], rate).value;
      && r.status == EntryStatus.Complete && r.startTime == s && r.endTime == Some(c) && r.pauseTime.None?
      && r.totalTime == e.totalTime + (p - e.startTime) + (c - s)
      && r.hours == e.hours + HoursIncrement(p - e.startTime) + HoursIncrement(c - s)
      && r.bill == e.bill + BillIncrement(HoursIncrement(p - e.startTime), rate) + BillIncrement(HoursIncrement(c - s), rate)
  {
    var steps := [Step(Pause, p), Step(Resume, s), Step(EntryAction.Complete, c)];
    var e1 := Transition(e, Pause, p, rate);
    var e2 := Transition(e1, Resume, s, rate);
    var e3 := Transition(e2, EntryAction.Complete, c, rate);
    assert Apply(e, Pause, p, rate) == Ok(e1);
    assert Apply(e1, Resume, s, rate) == Ok(e2);
    assert Apply(e2, EntryAction.Complete, c, rate) == Ok(e3);
    assert steps[1..][1..][1..] == [];
    assert Run(e2, steps[1..][1..], rate) == Ok(e3);
  }

  /** Completing a paused entry ends it at its pause and bills nothing for the time since. */
  lemma CompleteFromPaused(e: Entry, t: Instant, rate: int)
    requires Consistent(e) && e.status == Paused && t >= e.startTime
    ensures Apply(e, EntryAction.Complete, t, rate).Ok?
    ensures var r := Apply(e, EntryAction.Complete, t, rate).value;
      r.endTime == e.pauseTime && r.status == EntryStatus.Complete && Unbilled(e, r)
  {
  }

  /** Completing a paused entry still refuses an entry time before the start, although it is not used. */
  lemma CompleteFromPausedChecksTime(e: Entry, t: Instant, rate: int)
    requires e.status == Paused && t < e.startTime
    ensures Apply(e, EntryAction.Complete, t, rate) == Err(FieldErrors(map["entry_time" := PrecedesStartMessage]))
  {
  }

  /** A resumption is checked against the start only: it may be earlier than the pause it ends. */
  lemma ResumeBeforePause(e: Entry, t: Instant, rate: int)
    requires Consistent(e) && e.status == Paused && e.startTime <= t < e.pauseTime.value
    ensures Apply(e, Resume, t, rate).Ok?
    ensures Apply(e, Resume, t, rate).value.startTime < e.pauseTime.value
  {
  }

  /**
   * Pausing a fresh entry after `k` whole hours bills exactly `k` hours at the rate: four hours is
   * 14400 seconds, 4.000000 hours and four times the rate.
   */
  lemma PauseWholeHours(e: Entry, k: nat, rate: int)
    requires e.status == Active && e.totalTime == 0 && e.hours == 0 && e.bill == 0
    ensures Apply(e, Pause, e.startTime + k * SecondsPerHour, rate).Ok?
    ensures var r := Apply(e, Pause, e.startTime + k * SecondsPerHour, rate).value;
      r.totalTime == k * SecondsPerHour && r.hours == k * MicroHoursPerHour && r.bill == k * rate
  {
    WholeHours(k, rate);
  }

  // ---------------------------------------------------------------------------------------------
  // Manual creation

  /** An entry created with both of its times and then billed once over the interval between them. */
  function Backfilled(task: TaskId, comment: string, start: Instant, end: Instant, rate: int): (e: Entry)
    ensures e.task == task && e.comment == comment && e.startTime == start && e.endTime == Some(end)
    ensures e.pauseTime.None? && e.status == Active
    ensures Billed(NewEntry(task, "", start, Some(end)), e, end - start, rate)
  {
    Accumulate(NewEntry(task, comment, start, Some(end)), start, end, rate)
  }

  /** The required task-id field of manual creation and its validator: the task must be among the requester's tasks. */
  function OwnTaskError(taskId: Input<TaskId>, userTasks: set<TaskId>): Option<string> {
    match taskId
    case Given(id) => if id !in userTasks then Some(NotAssignedMessage) else None
    case _ => InputError(taskId, true)
  }

  /** The optional comment: not sending one is allowed, a null or a blank one is not, and the text is stripped. */
  function CommentError(comment: Input<string>): (err: Option<string>)
    ensures err.None? <==> comment.Absent? || (comment.Given? && !Text.Blank(comment.value))
    ensures comment.Given? && err.Some? ==> err.value == BlankMessage
    ensures !comment.Given? ==> err == InputError(comment, false)
  {
    match comment
    case Given(s) =>
      (match CharField(Some(s), false)
       case Err(msg) => Some(msg)
       case Ok(_) => None)
    case _ => InputError(comment, false)
  }

  /**
   * The field errors of a manual-creation request from the outcome of each field's own validator:
   * exactly the fields whose validator failed are reported, each with that validator's message.
   */
  function ManualFieldErrors(taskIdError: Option<string>, startError: Option<string>,
                             endError: Option<string>, commentError: Option<string>): (m: map<string, string>)
    ensures m == map[] <==> taskIdError.None? && startError.None? && endError.None? && commentError.None?
    ensures taskIdError.Some? ==> "task_id" in m && m["task_id"] == taskIdError.value
    ensures startError.Some? ==> "start_time" in m && m["start_time"] == startError.value
    ensures endError.Some? ==> "end_time" in m && m["end_time"] == endError.value
    ensures commentError.Some? ==> "comment" in m && m["comment"] == commentError.value
  {
    var checks := [("task_id", taskIdError), ("start_time", startError),
                   ("end_time", endError), ("comment", commentError)];
    assert checks[0].0 == "task_id" && checks[1].0 == "start_time";
    assert checks[2].0 == "end_time" && checks[3].0 == "comment";
    Collect(checks)
  }

  /**
   * Adding a finished entry by hand. After the field checks, the interval must lie in the past (the
   * start strictly, the end possibly at the current time) and then run forwards; the entry is
   * billed once over the interval and is complete.
   */
  function CreateManual(taskId: Input<TaskId>, start: Input<Instant>, end: Input<Instant>,
                        comment: Input<string>, now: Instant, userTasks: set<TaskId>, rate: int)
    : (r: Result<Entry, Rejection>)
    ensures !taskId.Given? ==> Reports(r, "task_id", InputError(taskId, true).value)
    ensures taskId.Given? && taskId.value !in userTasks ==> Reports(r, "task_id", NotAssignedMessage)
    ensures !start.Given? ==> Reports(r, "start_time", InputError(start, true).value)
    ensures !end.Given? ==> Reports(r, "end_time", InputError(end, true).value)
    ensures comment.Null? ==> Reports(r, "comment", NullMessage)
    ensures comment.Malformed? ==> Reports(r, "comment", comment.message)
    ensures comment.Given? && Text.Blank(comment.value) ==> Reports(r, "comment", BlankMessage)
    ensures (&& taskId.Given? && taskId.value in userTasks && start.Given? && end.Given?
             && CommentError(comment).None?) ==>
              (&& ((start.value >= now || end.value > now) ==>
                    r == Err(FieldErrors(map[NonFieldErrors := FutureIntervalMessage])))
               && ((start.value < now && end.value <= now && start.value >= end.value) ==>
                    r == Err(FieldErrors(map["start_time" := StartAfterEndMessage]))))
    ensures r.Ok? <==> (&& taskId.Given? && taskId.value in userTasks && start.Given? && end.Given?
                        && (comment.Absent? || (comment.Given? && !Text.Blank(comment.value)))
                        && start.value < end.value <= now)
    ensures r.Ok? ==> (&& r.value.task == taskId.value
                       && r.value.comment == (if comment.Given? then Text.Strip(comment.value) else "")
                       && r.value.startTime == start.value && r.value.endTime == Some(end.value)
                       && r.value.pauseTime.None? && r.value.status == EntryStatus.Complete
                       && Billed(NewEntry(taskId.value, "", start.value, Some(end.value)), r.value,
                                 end.value - start.value, rate))
  {
    var errors := ManualFieldErrors(OwnTaskError(taskId, userTasks), InputError(start, true),
                                    InputError(end, true), CommentError(comment));
    if errors != map[] then Err(FieldErrors(errors))
    else if start.value >= now || end.value > now then
      Err(FieldErrors(map[NonFieldErrors := FutureIntervalMessage]))
    else if start.value >= end.value then
      Err(FieldErrors(map["start_time" := StartAfterEndMessage]))
    else
      var text := if comment.Given? then Text.Strip(comment.value) else "";
      Ok(Backfilled(taskId.value, text, start.value, end.value, rate).(status := EntryStatus.Complete))
  }

  /** A manual entry is in a reachable state. */
  lemma CreateManualConsistent(taskId: Input<TaskId>, start: Input<Instant>, end: Input<Instant>,
                               comment: Input<string>, now: Instant, userTasks: set<TaskId>, rate: int)
    requires rate >= 0
    requires CreateManual(taskId, start, end, comment, now, userTasks, rate).Ok?
    ensures Consistent(CreateManual(taskId, start, end, comment, now, userTasks, rate).value)
  {
    IncrementsNonNegative(end.value - start.value, rate);
  }

  /**
   * A manual entry of `k` whole hours at `rate` bills exactly: five hours is 18000 seconds,
   * 5.000000 hours and five times the rate.
   */
  lemma ManualWholeHours(task: TaskId, s: Instant, k: nat, now: Instant, userTasks: set<TaskId>, rate: int)
    requires task in userTasks && k > 0 && s + k * SecondsPerHour <= now
    ensures CreateManual(Given(task), Given(s), Given(s + k * SecondsPerHour), Absent, now, userTasks, rate).Ok?
    ensures var r := CreateManual(Given(task), Given(s), Given(s + k * SecondsPerHour), Absent, now, userTasks, rate).value;
      r.totalTime == k * SecondsPerHour && r.hours == k * MicroHoursPerHour && r.bill == k * rate
  {
    WholeHours(k, rate);
  }
}

=== FILE: enum_fields.dfy ===
/**
 * `EnumField`, the serializer field that reads and writes members of an enumeration.
 *
 * An enumeration is given by its members in declaration order; a member has a `name`, an
 * integer `value` and a display `label`. The field is configured by which attribute names a
 * choice (`name_field`), which attribute is its wire value (`value_field`), an optional list of
 * attributes to represent as a dictionary (`fields`), and an optional restriction of the
 * admissible members (`choices`).
 */
module EnumFields {
  import opened Results
  import Text

  datatype Member = Member(name: string, value: int, labelText: string)

  /** The members of an enumeration in declaration order (`list(enum)`). */
  datatype EnumDecl = EnumDecl(members: seq<Member>)

  /** What Python's `Enum` guarantees of `list(enum)`: non-empty, distinct names and distinct values. */
  predicate WellFormed(d: EnumDecl) {
    && (forall i :: 0 <= i < |d.members| ==> d.members[i].name != "")
    && (forall i, j :: 0 <= i < j < |d.members| ==> d.members[i].name != d.members[j].name)
    && (forall i, j :: 0 <= i < j < |d.members| ==> d.members[i].value != d.members[j].value)
  }

  const NameFields: set<string> := {"name", "label"}
  const ValueFields: set<string> := {"name", "value"}
  const AllFields: set<string> := NameFields + ValueFields

  /** The value of one attribute of a member. */
  datatype Attr = AStr(s: string) | AInt(i: int)

  /** `getattr(member, key)` for one of the three attribute names. */
  function Attribute(m: Member, key: string): Attr
    requires key in AllFields
  {
    if key == "name" then AStr(m.name)
    else if key == "label" then AStr(m.labelText)
    else AInt(m.value)
  }

  /** An element of the `choices` argument: an enum member or a raw enum value. */
  datatype ChoiceArg = MemberArg(m: Member) | ValueArg(v: int)

  /** Input data handed to the field: a string, an integer, or an enum member. */
  datatype PyVal = PStr(s: string) | PInt(i: int) | PMember(m: Member)

  /** `str(input)`; an enum member prints as its label. */
  function Str(v: PyVal): string {
    match v
    case PStr(s) => s
    case PInt(i) => Text.Dec(i)
    case PMember(m) => m.labelText
  }

  /** A constructed field. `enumChoices` holds the admissible members, deduplicated, in declaration order. */
  datatype Config = Config(
    decl: EnumDecl,
    nameField: string,
    valueField: string,
    fields: seq<string>,
    enumChoices: seq<Member>,
    allowBlank: bool)

  predicate ValidConfig(c: Config) {
    && c.nameField in NameFields
    && c.valueField in ValueFields
    && (forall i :: 0 <= i < |c.fields| ==> c.fields[i] in AllFields)
    && (forall i :: 0 <= i < |c.enumChoices| ==> c.enumChoices[i] in c.decl.members)
  }

  /** The `ValueError`s raised by the constructor. */
  datatype ConstructError =
    | InvalidNameField(arg: string)
    | InvalidValueField(arg: string)
    | InvalidFieldsArg
    | InvalidChoicesArg

  function ConstructMessage(e: ConstructError): string {
    match e
    case InvalidNameField(a) => "Invalid \"name_field\" arg: " + a
    case InvalidValueField(a) => "Invalid \"value_field\" arg: " + a
    case InvalidFieldsArg => "Invalid fields arg. Valid values: " + "{'name', 'label', 'value'}"
    case InvalidChoicesArg => "Choices should be an iterable of enum members or values."
  }

  /** `enum(v)`: the member whose value is `v`. */
  function ByValue(ms: seq<Member>, v: int): (r: Option<Member>)
    ensures r.Some? <==> exists i :: 0 <= i < |ms| && ms[i].value == v
    ensures r.Some? ==> r.value in ms && r.value.value == v
  {
    if |ms| == 0 then None
    else if ms[0].value == v then Some(ms[0])
    else
      var r := ByValue(ms[1..], v);
      assert forall i :: 1 <= i < |ms| ==> ms[i] == ms[1..][i - 1];
      r
  }

  /** One element of `choices` as a member: itself when it is a member of the enum, else `enum(e)`. */
  function ResolveChoice(d: EnumDecl, a: ChoiceArg): (r: Option<Member>)
    ensures r.Some? ==> r.value in d.members
    ensures a.MemberArg? ==> (r.Some? <==> a.m in d.members)
  {
    match a
    case MemberArg(m) => if m in d.members then Some(m) else None
    case ValueArg(v) => ByValue(d.members, v)
  }

  /** The set `{resolve(e) for e in choices}`, or `None` when some element is neither a member nor a value. */
  function ResolveAll(d: EnumDecl, args: seq<ChoiceArg>): (r: Option<set<Member>>)
    ensures r.Some? <==> forall i :: 0 <= i < |args| ==> ResolveChoice(d, args[i]).Some?
    ensures r.Some? ==> forall m :: m in r.value <==> exists i :: 0 <= i < |args| && ResolveChoice(d, args[i]) == Some(m)
  {
    if |args| == 0 then Some({})
    else
      assert forall i :: 1 <= i < |args| ==> args[i] == args[1..][i - 1];
      match ResolveChoice(d, args[0])
      case None => None
      case Some(m) =>
        match ResolveAll(d, args[1..])
        case None => None
        case Some(rest) =>
          assert forall x :: x in rest ==> exists i :: 0 <= i < |args| && ResolveChoice(d, args[i]) == Some(x) by {
            forall x | x in rest ensures exists i :: 0 <= i < |args| && ResolveChoice(d, args[i]) == Some(x) {
              var j :| 0 <= j < |args[1..]| && ResolveChoice(d, args[1..][j]) == Some(x);
              assert ResolveChoice(d, args[j + 1]) == Some(x);
            }
          }
          Some({m} + rest)
  }

  /** Position of the first occurrence of `m` in `ms`. */
  function IndexOf(ms: seq<Member>, m: Member): (k: nat)
    requires m in ms
    ensures k < |ms| && ms[k] == m
    ensures forall i :: 0 <= i < k ==> ms[i] != m
  {
    if ms[0] == m then 0 else 1 + IndexOf(ms[1..], m)
  }

  predicate Distinct(ms: seq<Member>) {
    forall i, j :: 0 <= i < j < |ms| ==> ms[i] != ms[j]
  }

  /** `sorted(chosen, key=list(enum).index)` for a set of members of the enum. */
  function InDeclarationOrder(ms: seq<Member>, chosen: set<Member>): (r: seq<Member>)
    requires Distinct(ms)
    ensures forall m :: m in r <==> m in ms && m in chosen
    ensures forall i, j :: 0 <= i < j < |r| ==> IndexOf(ms, r[i]) < IndexOf(ms, r[j])
    ensures Distinct(r)
  {
    if |ms| == 0 then []
    else
      var rest := InDeclarationOrder(ms[1..], chosen);
      TailIndices(ms, rest);
      if ms[0] in chosen then [ms[0]] + rest else rest
  }

  /** In a list without repeats, a member of the tail is not the head and sits one place further on. */
  lemma TailIndices(ms: seq<Member>, rest: seq<Member>)
    requires |ms| > 0 && Distinct(ms)
    requires forall m :: m in rest ==> m in ms[1..]
    ensures forall m :: m in rest ==> m != ms[0] && IndexOf(ms, m) == 1 + IndexOf(ms[1..], m)
  {
    forall m | m in rest
      ensures m != ms[0] && IndexOf(ms, m) == 1 + IndexOf(ms[1..], m)
    {
      var k := IndexOf(ms[1..], m);
      assert ms[k + 1] == m;
    }
  }

  lemma WellFormedDistinct(d: EnumDecl)
    requires WellFormed(d)
    ensures Distinct(d.members)
  {
  }

  /**
   * The admissible members: every member in declaration order when `choices` is not given,
   * else the deduplicated resolutions of `choices` in declaration order; `None` when some element of
   * `choices` is neither a member nor a value of the enum.
   */
  function Admissible(d: EnumDecl, choices: Option<seq<ChoiceArg>>): (r: Option<seq<Member>>)
    requires WellFormed(d)
    ensures r.Some? <==> (choices.Some? ==> forall i :: 0 <= i < |choices.value| ==> ResolveChoice(d, choices.value[i]).Some?)
    ensures r.Some? && choices.None? ==> r.value == d.members
    ensures r.Some? && choices.Some? ==>
              forall m :: m in r.value <==> exists i :: 0 <= i < |choices.value| && ResolveChoice(d, choices.value[i]) == Some(m)
    ensures r.Some? ==> Distinct(r.value) && forall m :: m in r.value ==> m in d.members
    ensures r.Some? ==> forall i, j :: 0 <= i < j < |r.value| ==> IndexOf(d.members, r.value[i]) < IndexOf(d.members, r.value[j])
  {
    WellFormedDistinct(d);
    match choices
    case None =>
      var all := AllMembers(d.members);
      var unique := ResolveAll(d, all).value;
      assert forall m :: m in unique <==> m in d.members by {
        forall m ensures m in unique <==> m in d.members {
          if m in d.members {
            var i :| 0 <= i < |d.members| && d.members[i] == m;
            assert ResolveChoice(d, all[i]) == Some(m);
          }
        }
      }
      AllMembersOrdered(d, unique);
      Some(InDeclarationOrder(d.members, unique))
    case Some(args) =>
      match ResolveAll(d, args)
      case None => None
      case Some(unique) => Some(InDeclarationOrder(d.members, unique))
  }

  /**
   * The constructor `EnumField(enum, name_field, value_field, fields, choices)`. `fields` is empty
   * when the argument is absent or empty; `choices` is `None` when it is not given.
   */
  function NewField(
    d: EnumDecl, nameField: string, valueField: string, fields: seq<string>,
    choices: Option<seq<ChoiceArg>>, allowBlank: bool): (r: Result<Config, ConstructError>)
    requires WellFormed(d)
    ensures nameField !in NameFields ==> r == Err(InvalidNameField(nameField))
    ensures nameField in NameFields && valueField !in ValueFields ==> r == Err(InvalidValueField(valueField))
    ensures (&& nameField in NameFields && valueField in ValueFields
             && !(forall i :: 0 <= i < |fields| ==> fields[i] in AllFields)) ==> r == Err(InvalidFieldsArg)
    ensures (&& nameField in NameFields && valueField in ValueFields
             && (forall i :: 0 <= i < |fields| ==> fields[i] in AllFields)
             && choices.Some? && !(forall i :: 0 <= i < |choices.value| ==> ResolveChoice(d, choices.value[i]).Some?)) ==>
              r == Err(InvalidChoicesArg)
    ensures r.Ok? <==>
              (&& nameField in NameFields && valueField in ValueFields
               && (forall i :: 0 <= i < |fields| ==> fields[i] in AllFields)
               && (choices.Some? ==> forall i :: 0 <= i < |choices.value| ==> ResolveChoice(d, choices.value[i]).Some?))
    ensures r.Ok? ==> (&& ValidConfig(r.value) && r.value.decl == d && r.value.fields == fields
                       && r.value.nameField == nameField && r.value.valueField == valueField
                       && r.value.allowBlank == allowBlank)
    ensures r.Ok? && choices.None? ==> r.value.enumChoices == d.members
    ensures r.Ok? && choices.Some? ==>
              forall m :: m in r.value.enumChoices <==>
                exists i :: 0 <= i < |choices.value| && ResolveChoice(d, choices.value[i]) == Some(m)
    ensures r.Ok? ==> Distinct(r.value.enumChoices)
    ensures r.Ok? ==> forall i, j :: 0 <= i < j < |r.value.enumChoices| ==>
              IndexOf(d.members, r.value.enumChoices[i]) < IndexOf(d.members, r.value.enumChoices[j])
  {
    if nameField !in NameFields then Err(InvalidNameField(nameField))
    else if valueField !in ValueFields then Err(InvalidValueField(valueField))
    else if !(forall i :: 0 <= i < |fields| ==> fields[i] in AllFields) then Err(InvalidFieldsArg)
    else
      match Admissible(d, choices)
      case None => Err(InvalidChoicesArg)
      case Some(ordered) => Ok(Config(d, nameField, valueField, fields, ordered, allowBlank))
  }

  /** `list(enum)` as constructor arguments. */
  function AllMembers(ms: seq<Member>): (r: seq<ChoiceArg>)
    ensures |r| == |ms| && forall i :: 0 <= i < |ms| ==> r[i] == MemberArg(ms[i])
  {
    if |ms| == 0 then [] else [MemberArg(ms[0])] + AllMembers(ms[1..])
  }

  /** Ordering every member by declaration index gives the declaration back. */
  lemma AllMembersOrdered(d: EnumDecl, unique: set<Member>)
    requires Distinct(d.members)
    requires forall m :: m in unique <==> m in d.members
    ensures InDeclarationOrder(d.members, unique) == d.members
  {
    FilterAll(d.members, unique);
  }

  lemma {:induction false} FilterAll(ms: seq<Member>, chosen: set<Member>)
    requires Distinct(ms)
    requires forall m :: m in ms ==> m in chosen
    ensures InDeclarationOrder(ms, chosen) == ms
  {
    if |ms| > 0 {
      var t := ms[1..];
      assert Distinct(t) by {
        forall i, j | 0 <= i < j < |t| ensures t[i] != t[j] {
          assert t[i] == ms[i + 1] && t[j] == ms[j + 1];
        }
      }
      assert forall m :: m in t ==> m in chosen by {
        forall m | m in t ensures m in chosen {
          var i :| 0 <= i < |t| && t[i] == m;
          assert ms[i + 1] == m;
        }
      }
      FilterAll(t, chosen);
      assert ms[0] in chosen;
      assert [ms[0]] + t == ms;
    }
  }

  /**
   * The `(value, display)` pairs handed to the underlying choice field, one per admissible member in
   * order: each offered value is what the field writes for that member.
   */
  function ChoicePairs(c: Config): (r: seq<(Attr, Attr)>)
    requires ValidConfig(c)
    ensures |r| == |c.enumChoices|
    ensures |c.fields| == 0 ==>
              forall i :: 0 <= i < |r| ==> ToRepresentation(c, Some(c.enumChoices[i])) == Scalar(r[i].0)
  {
    seq(|c.enumChoices|, i requires 0 <= i < |c.enumChoices| =>
      (Attribute(c.enumChoices[i], c.valueField), Attribute(c.enumChoices[i], c.nameField)))
  }

  /**
   * In a well-formed enumeration with distinct admissible members, no two pairs share a value, so
   * the choice field's value-to-choice table keeps every choice.
   */
  lemma ChoicePairsDistinct(c: Config)
    requires ValidConfig(c) && WellFormed(c.decl) && Distinct(c.enumChoices)
    ensures forall i, j :: 0 <= i < j < |ChoicePairs(c)| ==> ChoicePairs(c)[i].0 != ChoicePairs(c)[j].0
  {
    var r := ChoicePairs(c);
    forall i, j | 0 <= i < j < |r| ensures r[i].0 != r[j].0 {
      var a, b := c.enumChoices[i], c.enumChoices[j];
      assert a != b && a in c.decl.members && b in c.decl.members;
      if c.valueField == "name" {
        if a.name == b.name {
          SameNameSameMember(c.decl, a, b);
        }
      } else {
        if a.value == b.value {
          SameValueSameMember(c.decl, a, b);
        }
      }
    }
  }

  /** What the field writes out. */
  datatype Rep = Null | Scalar(a: Attr) | Dict(entries: map<string, Attr>)

  /** `to_representation`: nothing for a missing member, else the value attribute or a dictionary of the requested attributes. */
  function ToRepresentation(c: Config, x: Option<Member>): (r: Rep)
    requires ValidConfig(c)
    ensures x.None? <==> r.Null?
    ensures x.Some? && |c.fields| == 0 ==> r == Scalar(Attribute(x.value, c.valueField))
    ensures x.Some? && |c.fields| > 0 ==>
              (&& r.Dict?
               && r.entries.Keys == (set i | 0 <= i < |c.fields| :: c.fields[i])
               && forall k :: k in r.entries ==> k in AllFields && r.entries[k] == Attribute(x.value, k))
  {
    match x
    case None => Null
    case Some(m) =>
      if |c.fields| > 0 then
        Dict(map k | k in (set i | 0 <= i < |c.fields| :: c.fields[i]) :: Attribute(m, k))
      else Scalar(Attribute(m, c.valueField))
  }

  /** DRF's `invalid_choice` message. */
  function InvalidChoiceMessage(input: PyVal): string {
    "\"" + Str(input) + "\" is not a valid choice."
  }

  /** The first admissible member named `s`. */
  function FirstByName(cs: seq<Member>, s: string): (r: Option<Member>)
    ensures r.Some? <==> exists i :: 0 <= i < |cs| && cs[i].name == s
    ensures r.Some? ==> r.value in cs && r.value.name == s
  {
    if |cs| == 0 then None
    else if cs[0].name == s then Some(cs[0])
    else
      assert forall i :: 1 <= i < |cs| ==> cs[i] == cs[1..][i - 1];
      FirstByName(cs[1..], s)
  }

  /** `{str(value): value for value in choices}[key]`: a later choice overwrites an earlier one. */
  function LookupValue(cs: seq<Member>, key: string): (r: Option<int>)
    ensures r.Some? <==> exists i :: 0 <= i < |cs| && Text.Dec(cs[i].value) == key
    ensures r.Some? ==> Text.Dec(r.value) == key && exists i :: 0 <= i < |cs| && cs[i].value == r.value
  {
    if |cs| == 0 then None
    else
      assert forall i :: 1 <= i < |cs| ==> cs[i] == cs[1..][i - 1];
      var later := LookupValue(cs[1..], key);
      if later.Some? then later
      else if Text.Dec(cs[0].value) == key then Some(cs[0].value)
      else None
  }

  /**
   * `to_internal_value`: a blank string when blanks are allowed reads as nothing; a member of the
   * enum is taken as is; otherwise the input is looked up among the admissible members by its value
   * attribute, and a failed lookup raises `invalid_choice`.
   */
  function ToInternalValue(c: Config, input: PyVal): (r: Result<Option<Member>, string>)
    requires ValidConfig(c)
    ensures r.Ok? && r.value.Some? ==> r.value.value in c.decl.members
    ensures r.Ok? && r.value.None? ==> input == PStr("") && c.allowBlank
    ensures r.Err? ==> r.error == InvalidChoiceMessage(input)
    ensures input.PMember? && input.m in c.decl.members ==> r == Ok(Some(input.m))
    ensures r.Ok? && r.value.Some? && !input.PMember? && c.valueField == "name" ==> input == PStr(r.value.value.name)
    ensures r.Ok? && r.value.Some? && !input.PMember? && c.valueField == "value" ==> Text.Dec(r.value.value.value) == Str(input)
    ensures WellFormed(c.decl) && r.Ok? && r.value.Some? && !input.PMember? ==> r.value.value in c.enumChoices
  {
    if input == PStr("") && c.allowBlank then Ok(None)
    else if input.PMember? && input.m in c.decl.members then Ok(Some(input.m))
    else if c.valueField == "value" then
      match LookupValue(c.enumChoices, Str(input))
      case None => Err(InvalidChoiceMessage(input))
      case Some(v) =>
        match ByValue(c.decl.members, v)
        case None => Err(InvalidChoiceMessage(input))
        case Some(m) =>
          assert WellFormed(c.decl) ==> m in c.enumChoices by {
            if WellFormed(c.decl) {
              var i :| 0 <= i < |c.enumChoices| && c.enumChoices[i].value == v;
              SameValueSameMember(c.decl, m, c.enumChoices[i]);
            }
          }
          Ok(Some(m))
    else
      match input
      case PStr(s) =>
        (match FirstByName(c.enumChoices, s)
         case None => Err(InvalidChoiceMessage(input))
         case Some(m) => Ok(Some(m)))
      case _ => Err(InvalidChoiceMessage(input))
  }

  /** Two members of a well-formed enumeration with the same name are the same member. */
  lemma SameNameSameMember(d: EnumDecl, a: Member, b: Member)
    requires WellFormed(d) && a in d.members && b in d.members && a.name == b.name
    ensures a == b
  {
    var i :| 0 <= i < |d.members| && d.members[i] == a;
    var j :| 0 <= j < |d.members| && d.members[j] == b;
  }

  /** Two members of a well-formed enumeration with the same value are the same member. */
  lemma SameValueSameMember(d: EnumDecl, a: Member, b: Member)
    requires WellFormed(d) && a in d.members && b in d.members && a.value == b.value
    ensures a == b
  {
    var i :| 0 <= i < |d.members| && d.members[i] == a;
    var j :| 0 <= j < |d.members| && d.members[j] == b;
  }

  /** With `value_field="name"`, writing an admissible member and reading the name back yields the member. */
  lemma NameRoundTrip(c: Config, m: Member)
    requires WellFormed(c.decl) && ValidConfig(c)
    requires c.valueField == "name" && |c.fields| == 0
    requires m in c.enumChoices
    ensures ToRepresentation(c, Some(m)) == Scalar(AStr(m.name))
    ensures ToInternalValue(c, PStr(m.name)) == Ok(Some(m))
  {
    var i :| 0 <= i < |c.enumChoices| && c.enumChoices[i] == m;
    assert m in c.decl.members;
    assert m.name != "" by {
      var j :| 0 <= j < |c.decl.members| && c.decl.members[j] == m;
    }
    var found := FirstByName(c.enumChoices, m.name);
    assert found.Some?;
    SameNameSameMember(c.decl, found.value, m);
  }

  /** With `value_field="value"`, writing an admissible member and reading the value back, as a number or as its numeral, yields the member. */
  lemma ValueRoundTrip(c: Config, m: Member)
    requires WellFormed(c.decl) && ValidConfig(c)
    requires c.valueField == "value" && |c.fields| == 0
    requires m in c.enumChoices
    ensures ToRepresentation(c, Some(m)) == Scalar(AInt(m.value))
    ensures ToInternalValue(c, PInt(m.value)) == Ok(Some(m))
    ensures ToInternalValue(c, PStr(Text.Dec(m.value))) == Ok(Some(m))
  {
    var i :| 0 <= i < |c.enumChoices| && c.enumChoices[i] == m;
    var key := Text.Dec(m.value);
    var v := LookupValue(c.enumChoices, key);
    assert v.Some?;
    Text.DecInjective(v.value, m.value);
    var byValue := ByValue(c.decl.members, m.value);
    assert m in c.decl.members;
    SameValueSameMember(c.decl, byValue.value, m);
    assert PStr(key) != PStr("") by {
      assert |key| > 0;
    }
  }

  /** With `value_field="name"`, a string that names no admissible member is refused with `invalid_choice`. */
  lemma UnknownNameRejected(c: Config, s: string)
    requires ValidConfig(c) && c.valueField == "name"
    requires !(s == "" && c.allowBlank)
    requires forall i :: 0 <= i < |c.enumChoices| ==> c.enumChoices[i].name != s
    ensures ToInternalValue(c, PStr(s)) == Err(InvalidChoiceMessage(PStr(s)))
  {
  }

  /** With `value_field="value"`, an input whose text is no admissible member's value is refused. */
  lemma UnknownValueRejected(c: Config, input: PyVal)
    requires ValidConfig(c) && c.valueField == "value"
    requires !(input == PStr("") && c.allowBlank) && !(input.PMember? && input.m in c.decl.members)
    requires forall i :: 0 <= i < |c.enumChoices| ==> Text.Dec(c.enumChoices[i].value) != Str(input)
    ensures ToInternalValue(c, input) == Err(InvalidChoiceMessage(input))
  {
  }
}

=== FILE: enums.dfy ===
/**
 * The closed enumerations of the tracker: entry status, entry action, task status and task type.
 * Each member carries the integer value stored in the database, its Python name and its display
 * label. A member without a declared label gets the enumeration library's default, the name with
 * underscores turned into spaces and put in title case; those defaults are written out below.
 */
module Enums {
  import opened Results
  import Text
  import EnumFields

  datatype EntryStatus = Active | Paused | Complete {
    function Value(): int {
      match this
      case Active => 1
      case Paused => 2
      case Complete => 3
    }

    function Name(): string {
      match this
      case Active => "ACTIVE"
      case Paused => "PAUSED"
      case Complete => "COMPLETE"
    }

    function Label(): string {
      match this
      case Active => "Active"
      case Paused => "Paused"
      case Complete => "Complete"
    }

    /** The stored integer read back; only 1, 2 and 3 name a status. */
    static function FromValue(v: int): (r: Option<EntryStatus>)
      ensures r.Some? <==> 1 <= v <= 3
      ensures r.Some? ==> r.value.Value() == v
    {
      if v == 1 then Some(Active) else if v == 2 then Some(Paused) else if v == 3 then Some(EntryStatus.Complete) else None
    }

    function AsMember(): EnumFields.Member {
      EnumFields.Member(Name(), Value(), Label())
    }
  }

  datatype EntryAction = Pause | Resume | Complete {
    function Value(): int {
      match this
      case Pause => 1
      case Resume => 2
      case Complete => 3
    }

    function Name(): string {
      match this
      case Pause => "PAUSE"
      case Resume => "RESUME"
      case Complete => "COMPLETE"
    }

    function Label(): string {
      match this
      case Pause => "Pause"
      case Resume => "Resume"
      case Complete => "Complete"
    }

    static function FromValue(v: int): (r: Option<EntryAction>)
      ensures r.Some? <==> 1 <= v <= 3
      ensures r.Some? ==> r.value.Value() == v
    {
      if v == 1 then Some(Pause) else if v == 2 then Some(Resume) else if v == 3 then Some(EntryAction.Complete) else None
    }

    function AsMember(): EnumFields.Member {
      EnumFields.Member(Name(), Value(), Label())
    }
  }

  datatype TaskStatus = New | InProgress | Completed | NeedsFeedback | Closed {
    function Value(): int {
      match this
      case New => 1
      case InProgress => 2
      case Completed => 3
      case NeedsFeedback => 4
      case Closed => 5
    }

    function Name(): string {
      match this
      case New => "NEW"
      case InProgress => "IN_PROGRESS"
      case Completed => "COMPLETED"
      case NeedsFeedback => "NEEDS_FEEDBACK"
      case Closed => "CLOSED"
    }

    /** `IN_PROGRESS` and `NEEDS_FEEDBACK` declare their labels; the rest are library defaults. */
    function Label(): string {
      match this
      case New => "New"
      case InProgress => "In Progress"
      case Completed => "Completed"
      case NeedsFeedback => "Feedback Needed"
      case Closed => "Closed"
    }

    static function FromValue(v: int): (r: Option<TaskStatus>)
      ensures r.Some? <==> 1 <= v <= 5
      ensures r.Some? ==> r.value.Value() == v
    {
      if v == 1 then Some(New) else if v == 2 then Some(InProgress) else if v == 3 then Some(Completed)
      else if v == 4 then Some(NeedsFeedback) else if v == 5 then Some(Closed) else None
    }

    function AsMember(): EnumFields.Member {
      EnumFields.Member(Name(), Value(), Label())
    }
  }

  datatype TaskType = Feature | Bug | DevOps | Documentation | Reporting | Investigation | Database {
    function Value(): int {
      match this
      case Feature => 1
      case Bug => 2
      case DevOps => 3
      case Documentation => 4
      case Reporting => 5
      case Investigation => 6
      case Database => 7
    }

    function Name(): string {
      match this
      case Feature => "FEATURE"
      case Bug => "BUG"
      case DevOps => "DEV_OPS"
      case Documentation => "DOCUMENTATION"
      case Reporting => "REPORTING"
      case Investigation => "INVESTIGATION"
      case Database => "DATABASE"
    }

    /** `DEV_OPS` declares its label; the rest are library defaults. */
    function Label(): string {
      match this
      case Feature => "Feature"
      case Bug => "Bug"
      case DevOps => "Dev Ops"
      case Documentation => "Documentation"
      case Reporting => "Reporting"
      case Investigation => "Investigation"
      case Database => "Database"
    }

    static function FromValue(v: int): (r: Option<TaskType>)
      ensures r.Some? <==> 1 <= v <= 7
      ensures r.Some? ==> r.value.Value() == v
    {
      if v == 1 then Some(Feature) else if v == 2 then Some(Bug) else if v == 3 then Some(DevOps)
      else if v == 4 then Some(Documentation) else if v == 5 then Some(Reporting)
      else if v == 6 then Some(Investigation) else if v == 7 then Some(Database) else None
    }

    function AsMember(): EnumFields.Member {
      EnumFields.Member(Name(), Value(), Label())
    }
  }

  /** `list(EntryStatus)`. */
  function EntryStatusDecl(): EnumFields.EnumDecl {
    EnumFields.EnumDecl([Active.AsMember(), Paused.AsMember(), EntryStatus.Complete.AsMember()])
  }

  /** `list(EntryAction)`. */
  function EntryActionDecl(): EnumFields.EnumDecl {
    EnumFields.EnumDecl([Pause.AsMember(), Resume.AsMember(), EntryAction.Complete.AsMember()])
  }

  /** `list(TaskStatus)`. */
  function TaskStatusDecl(): EnumFields.EnumDecl {
    EnumFields.EnumDecl([New.AsMember(), InProgress.AsMember(), Completed.AsMember(),
                         NeedsFeedback.AsMember(), Closed.AsMember()])
  }

  /** `list(TaskType)`. */
  function TaskTypeDecl(): EnumFields.EnumDecl {
    EnumFields.EnumDecl([Feature.AsMember(), Bug.AsMember(), DevOps.AsMember(), Documentation.AsMember(),
                         Reporting.AsMember(), Investigation.AsMember(), Database.AsMember()])
  }

  /** Every status is recovered from its stored value, and the declaration lists it in value order. */
  lemma EntryStatusClosed(s: EntryStatus)
    ensures EntryStatus.FromValue(s.Value()) == Some(s)
    ensures EntryStatusDecl().members[s.Value() - 1] == s.AsMember()
    ensures EnumFields.WellFormed(EntryStatusDecl())
  {
  }

  /** Every action is recovered from its stored value, and the declaration lists it in value order. */
  lemma EntryActionClosed(a: EntryAction)
    ensures EntryAction.FromValue(a.Value()) == Some(a)
    ensures EntryActionDecl().members[a.Value() - 1] == a.AsMember()
    ensures EnumFields.WellFormed(EntryActionDecl())
  {
  }

  /** Every task status is recovered from its stored value, and the declaration lists it in value order. */
  lemma TaskStatusClosed(s: TaskStatus)
    ensures TaskStatus.FromValue(s.Value()) == Some(s)
    ensures TaskStatusDecl().members[s.Value() - 1] == s.AsMember()
  {
  }

  /** Every task type is recovered from its stored value, and the declaration lists it in value order. */
  lemma TaskTypeClosed(t: TaskType)
    ensures TaskType.FromValue(t.Value()) == Some(t)
    ensures TaskTypeDecl().members[t.Value() - 1] == t.AsMember()
  {
  }

  lemma TaskTypeDeclWellFormed()
    ensures EnumFields.WellFormed(TaskTypeDecl())
  {
    var ms := TaskTypeDecl().members;
    assert forall i :: 0 <= i < |ms| ==> ms[i].value == i + 1;
    assert forall i, j :: 0 <= i < j < |ms| ==> ms[i].name != ms[j].name;
  }

  lemma TaskStatusDeclWellFormed()
    ensures EnumFields.WellFormed(TaskStatusDecl())
  {
    var ms := TaskStatusDecl().members;
    assert forall i :: 0 <= i < |ms| ==> ms[i].value == i + 1;
    assert forall i, j :: 0 <= i < j < |ms| ==> ms[i].name != ms[j].name;
  }
}

=== FILE: legacy_entry_api.dfy ===
/**
 * The older entry endpoints, kept beside the current ones. They share the billing arithmetic and
 * most messages, but differ in how a task id is checked, in how an update is dispatched and
 * billed, and in what a manual entry ends up as.
 *
 * Both task-id validators read `entries` off the requesting user, a relation the user model does
 * not have, so as written every request that carries a task id crashes. The corrected validators
 * check that the task belongs to the requester, as the current start endpoint does.
 */
module LegacyEntryApi {
  import opened Results
  import opened Validation
  import opened Enums
  import opened Models
  import opened Billables
  import EnumFields
  import EntryApi
  import Text

  const EndNotAfterStartMessage: string := "The selected end time must be greater than the selected start time."
  const NoUserAttributeMessage: string := "AttributeError: 'EntryManualCreateSerializer' object has no attribute 'user'"
  const FloatHoursCrash: string := "TypeError: unsupported operand type(s) for +=: 'decimal.Decimal' and 'float'"

  /**
   * The corrected task-id validator: the task must exist and belong to the requester. Unlike the
   * current start endpoint, an unknown task gets the same message as somebody else's.
   */
  function OwnedTaskError(taskId: Input<TaskId>, owners: map<TaskId, UserId>, requester: UserId): Option<string> {
    match taskId
    case Given(id) => if id in owners && owners[id] == requester then None else Some(EntryApi.NotAssignedMessage)
    case _ => InputError(taskId, true)
  }

  /**
   * Starting an entry live as written. The task id is validated first, and its validator reads
   * `entries` off the user and raises; so any request with a task id crashes, and one without is
   * refused with its field errors. No entry is ever started.
   */
  function CreateAsWritten(taskId: Input<TaskId>, start: Input<Instant>, now: Instant): (r: Result<Entry, Rejection>)
    ensures r.Err?
    ensures taskId.Given? ==> r == Err(Crash(NoUserEntriesCrash))
    ensures !taskId.Given? ==> Reports(r, "task_id", InputError(taskId, true).value)
    ensures !taskId.Given? && EntryApi.StartTimeError(start, now).Some? ==>
              Reports(r, "start_time", EntryApi.StartTimeError(start, now).value)
  {
    if taskId.Given? then Err(Crash(NoUserEntriesCrash))
    else
      var checks := [("task_id", InputError(taskId, true)), ("start_time", EntryApi.StartTimeError(start, now))];
      assert checks[0].0 == "task_id" && checks[1].0 == "start_time";
      Err(FieldErrors(Collect(checks)))
  }

  /**
   * Starting an entry live with the task-id validator corrected: the task must be the requester's,
   * and the start may equal but not exceed the current time.
   */
  function Create(taskId: Input<TaskId>, start: Input<Instant>, now: Instant,
                  owners: map<TaskId, UserId>, requester: UserId): (r: Result<Entry, Rejection>)
    ensures r.Ok? <==> (&& taskId.Given? && taskId.value in owners && owners[taskId.value] == requester
                        && start.Given? && start.value <= now)
    ensures taskId.Given? && !(taskId.value in owners && owners[taskId.value] == requester) ==>
              Reports(r, "task_id", EntryApi.NotAssignedMessage)
    ensures start.Given? && start.value > now ==> Reports(r, "start_time", EntryApi.FutureStartMessage)
    ensures r.Ok? ==> (&& r.value.task == taskId.value && r.value.startTime == start.value
                       && r.value.status == Active && r.value.totalTime == 0 && r.value.hours == 0
                       && r.value.bill == 0 && EntryApi.Consistent(r.value))
  {
    var checks := [("task_id", OwnedTaskError(taskId, owners, requester)),
                   ("start_time", EntryApi.StartTimeError(start, now))];
    assert checks[0].0 == "task_id" && checks[1].0 == "start_time";
    var errors := Collect(checks);
    if errors != map[] then Err(FieldErrors(errors))
    else Ok(NewEntry(taskId.value, "", start.value, None))
  }

  /** As written, starting one's own task crashes; corrected, it starts the entry. */
  lemma CreateCrashesAsWritten(task: TaskId, start: Instant, now: Instant, owners: map<TaskId, UserId>, requester: UserId)
    requires task in owners && owners[task] == requester && start <= now
    ensures CreateAsWritten(Given(task), Given(start), now) == Err(Crash(NoUserEntriesCrash))
    ensures Create(Given(task), Given(start), now, owners, requester).Ok?
  {
  }

  /**
   * The corrected older start and the current start give the same outcome for every request, except
   * that a task id naming no task is reported as not assigned rather than as not existing.
   */
  lemma CreateStartAgrees(taskId: Input<TaskId>, start: Input<Instant>, now: Instant,
                          owners: map<TaskId, UserId>, requester: UserId)
    ensures (taskId.Given? ==> taskId.value in owners) ==>
              Create(taskId, start, now, owners, requester) == EntryApi.Create(taskId, start, now, owners, requester)
    ensures taskId.Given? && taskId.value !in owners ==>
              && Reports(Create(taskId, start, now, owners, requester), "task_id", EntryApi.NotAssignedMessage)
              && Reports(EntryApi.Create(taskId, start, now, owners, requester), "task_id", EntryApi.NoSuchTaskMessage)
  {
    assert (taskId.Given? ==> taskId.value in owners) ==>
             OwnedTaskError(taskId, owners, requester) == EntryApi.TaskIdError(taskId, owners, requester);
  }

  /**
   * The update's effect with the action compared as a member, so that the pause and resume branches
   * are reached, and with the hours added in exact decimal arithmetic: a pause bills and records the
   * pause, a resume restarts the clock, and completion ends the entry at `t` and bills the time since
   * the start even when the entry was paused.
   */
  function Transition(e: Entry, a: EntryAction, t: Instant, rate: int): (r: Entry)
    ensures r.task == e.task && r.comment == e.comment
    ensures a == Pause ==> (&& r.status == Paused && r.pauseTime == Some(t) && r.startTime == e.startTime
                            && r.endTime == e.endTime && EntryApi.Billed(e, r, t - e.startTime, rate))
    ensures a == Resume ==> (&& r.status == Active && r.startTime == t && r.pauseTime.None?
                             && r.endTime == e.endTime && EntryApi.Unbilled(e, r))
    ensures a == EntryAction.Complete ==> (&& r.status == EntryStatus.Complete && r.endTime == Some(t)
                                           && r.startTime == e.startTime && r.pauseTime == e.pauseTime
                                           && EntryApi.Billed(e, r, t - e.startTime, rate))
  {
    match a
    case Pause => Accumulate(e.(pauseTime := Some(t), status := Paused), e.startTime, t, rate)
    case Resume => e.(startTime := t, pauseTime := None, status := Active)
    case Complete => Accumulate(e.(endTime := Some(t), status := EntryStatus.Complete), e.startTime, t, rate)
  }

  /** The checks of the older update: the same as the current update's, in the same order. */
  function Check(e: Entry, a: EntryAction, t: Instant): (r: Option<Rejection>)
    ensures r.None? <==> (&& e.status != EntryStatus.Complete && t >= e.startTime
                          && (a == Pause ==> e.status == Active) && (a == Resume ==> e.status == Paused))
    ensures forall rate :: r.Some? ==> EntryApi.Apply(e, a, t, rate) == Err(r.value)
  {
    if e.status == EntryStatus.Complete then Some(Detail(EntryApi.CompletedMessage))
    else if t < e.startTime then Some(FieldErrors(map["entry_time" := EntryApi.PrecedesStartMessage]))
    else
      match EntryApi.ActionError(e, a)
      case Some(msg) => Some(FieldErrors(map[NonFieldErrors := msg]))
      case None => None
  }

  /**
   * The older update as written. Its dispatch compares the action, an enumeration member, with the
   * strings "PAUSE" and "UNPAUSE"; a member never equals a string, so every accepted action takes the
   * completing branch. That branch bills through the older billing helper, which adds the hours as a
   * binary float to the stored decimal hours and raises `TypeError` before anything is saved. So a
   * request that passes the checks crashes, and one that fails them is refused as by the current
   * update.
   */
  function UpdateAsWritten(e: Entry, a: EntryAction, t: Instant, rate: int): (r: Result<Entry, Rejection>)
    ensures r.Err?
    ensures EntryApi.Apply(e, a, t, rate).Ok? ==> r == Err(Crash(FloatHoursCrash))
    ensures EntryApi.Apply(e, a, t, rate).Err? ==> r == EntryApi.Apply(e, a, t, rate)
  {
    match Check(e, a, t)
    case Some(x) => Err(x)
    case None => Err(Crash(FloatHoursCrash))
  }

  /**
   * The older update corrected: the action is dispatched as a member and the hours are added exactly,
   * so an accepted request is applied and saved.
   */
  function Update(e: Entry, a: EntryAction, t: Instant, rate: int): (r: Result<Entry, Rejection>)
    ensures r.Ok? <==> EntryApi.Apply(e, a, t, rate).Ok?
    ensures r.Err? ==> r == EntryApi.Apply(e, a, t, rate)
    ensures r.Ok? ==> r.value == Transition(e, a, t, rate)
  {
    match Check(e, a, t)
    case Some(x) => Err(x)
    case None => Ok(Transition(e, a, t, rate))
  }

  /** As written, pausing an active entry crashes; corrected, it pauses the entry. */
  lemma PauseCrashesAsWritten(e: Entry, t: Instant, rate: int)
    requires e.status == Active && e.startTime <= t
    ensures UpdateAsWritten(e, Pause, t, rate) == Err(Crash(FloatHoursCrash))
    ensures Update(e, Pause, t, rate).Ok? && Update(e, Pause, t, rate).value.status == Paused
  {
  }

  /** As written, resuming a paused entry crashes; corrected, it makes the entry active again. */
  lemma ResumeCrashesAsWritten(e: Entry, t: Instant, rate: int)
    requires e.status == Paused && e.startTime <= t
    ensures UpdateAsWritten(e, Resume, t, rate) == Err(Crash(FloatHoursCrash))
    ensures Update(e, Resume, t, rate).Ok? && Update(e, Resume, t, rate).value.status == Active
    ensures Update(e, Resume, t, rate).value.startTime == t
  {
  }

  /**
   * With the dispatch corrected, pausing and resuming agree with the current update, and so does
   * completing an active entry.
   */
  lemma CorrectedAgreesWithCurrent(e: Entry, a: EntryAction, t: Instant, rate: int)
    requires a != EntryAction.Complete || e.status == Active
    ensures Update(e, a, t, rate) == EntryApi.Apply(e, a, t, rate)
  {
    if EntryApi.Apply(e, a, t, rate).Ok? {
      var r, s := Transition(e, a, t, rate), EntryApi.Transition(e, a, t, rate);
      assert r == s;
    }
  }

  /**
   * Completing a paused entry differs even in the corrected older update: it ends the entry at `t` and
   * bills from the start again, where the current code ends it at the pause and bills nothing.
   */
  lemma CompleteFromPausedDiffers(e: Entry, t: Instant, rate: int)
    requires EntryApi.Consistent(e) && e.status == Paused && e.pauseTime.value < t
    ensures Update(e, EntryAction.Complete, t, rate).value.endTime == Some(t)
    ensures EntryApi.Apply(e, EntryAction.Complete, t, rate).value.endTime == e.pauseTime
    ensures Update(e, EntryAction.Complete, t, rate).value.totalTime
          > EntryApi.Apply(e, EntryAction.Complete, t, rate).value.totalTime
  {
  }

  /** The comment field of manual creation is required, may not be null and may not be blank. */
  function RequiredCommentError(comment: Input<string>): (err: Option<string>)
    ensures err.None? <==> comment.Given? && !Text.Blank(comment.value)
    ensures comment.Given? && err.Some? ==> err.value == BlankMessage
    ensures !comment.Given? ==> err == InputError(comment, true)
  {
    match comment
    case Given(s) =>
      (match CharField(Some(s), true)
       case Err(msg) => Some(msg)
       case Ok(_) => None)
    case _ => InputError(comment, true)
  }

  /**
   * Manual creation as written. The task-id validator reads the requester from an attribute the
   * serializer never sets, so any request that supplies a task id raises `AttributeError`; a request
   * without one is refused with its field errors. No entry is ever created.
   */
  function CreateManualAsWritten(taskId: Input<TaskId>, start: Input<Instant>, end: Input<Instant>,
                                 comment: Input<string>): (r: Result<Entry, Rejection>)
    ensures r.Err?
    ensures taskId.Given? ==> r == Err(Crash(NoUserAttributeMessage))
    ensures !taskId.Given? ==> Reports(r, "task_id", InputError(taskId, true).value)
  {
    if taskId.Given? then Err(Crash(NoUserAttributeMessage))
    else Err(FieldErrors(EntryApi.ManualFieldErrors(InputError(taskId, true), InputError(start, true),
                                                    InputError(end, true), RequiredCommentError(comment))))
  }

  /**
   * Manual creation with the requester supplied and the task-id validator corrected to check the
   * task's owner. The interval must run forwards (the current time is not consulted); the entry is
   * billed once and keeps its default status, active, although it has an end.
   */
  function CreateManual(taskId: Input<TaskId>, start: Input<Instant>, end: Input<Instant>, comment: Input<string>,
                        owners: map<TaskId, UserId>, requester: UserId, rate: int): (r: Result<Entry, Rejection>)
    ensures taskId.Given? && !(taskId.value in owners && owners[taskId.value] == requester) ==>
              Reports(r, "task_id", EntryApi.NotAssignedMessage)
    ensures comment.Absent? ==> Reports(r, "comment", RequiredMessage)
    ensures r.Ok? <==> (&& taskId.Given? && taskId.value in owners && owners[taskId.value] == requester
                        && start.Given? && end.Given?
                        && comment.Given? && !Text.Blank(comment.value) && start.value < end.value)
    ensures (&& taskId.Given? && taskId.value in owners && owners[taskId.value] == requester
             && start.Given? && end.Given?
             && comment.Given? && !Text.Blank(comment.value) && end.value <= start.value) ==>
              r == Err(FieldErrors(map[NonFieldErrors := EndNotAfterStartMessage]))
    ensures r.Ok? ==> (&& r.value.task == taskId.value && r.value.comment == Text.Strip(comment.value)
                       && r.value.startTime == start.value && r.value.endTime == Some(end.value)
                       && r.value.pauseTime.None? && r.value.status == Active
                       && EntryApi.Billed(NewEntry(taskId.value, "", start.value, Some(end.value)), r.value,
                                          end.value - start.value, rate))
  {
    var errors := EntryApi.ManualFieldErrors(OwnedTaskError(taskId, owners, requester), InputError(start, true),
                                             InputError(end, true), RequiredCommentError(comment));
    if errors != map[] then Err(FieldErrors(errors))
    else if end.value <= start.value then Err(FieldErrors(map[NonFieldErrors := EndNotAfterStartMessage]))
    else
      Ok(EntryApi.Backfilled(taskId.value, Text.Strip(comment.value), start.value, end.value, rate))
  }

  /**
   * An older manual entry is active yet has an end, a state the current endpoints never produce;
   * otherwise it carries the same times and totals as the current manual entry.
   */
  lemma ManualEntryDiffers(task: TaskId, start: Instant, end: Instant, comment: string, now: Instant,
                           owners: map<TaskId, UserId>, requester: UserId, userTasks: set<TaskId>, rate: int)
    requires task in owners && owners[task] == requester && task in userTasks
    requires start < end <= now && !Text.Blank(comment)
    ensures CreateManual(Given(task), Given(start), Given(end), Given(comment), owners, requester, rate).Ok?
    ensures !EntryApi.Consistent(CreateManual(Given(task), Given(start), Given(end), Given(comment), owners, requester, rate).value)
    ensures CreateManual(Given(task), Given(start), Given(end), Given(comment), owners, requester, rate).value
              .(status := EntryStatus.Complete)
         == EntryApi.CreateManual(Given(task), Given(start), Given(end), Given(comment), now, userTasks, rate).value
  {
  }
}

=== FILE: models.dfy ===
/**
 * The stored records of the tracker: tasks and time entries, with their field defaults and the
 * precision of their numeric columns.
 *
 * Units: an instant is a whole number of seconds, `hours` is kept in micro-hours (the column has six
 * decimal places), money is kept in cents (two decimal places), and an hourly rate is in cents per hour.
 */
module Models {
  import opened Results
  import opened Enums

  type Instant = int
  type UserId = nat
  type ProjectId = nat
  type TaskId = nat

  /**
   * What reading `entries` off a user raises: no relation of that name leads from a user (a user's
   * tasks are `tasks`, and the entries hang off each task).
   */
  const NoUserEntriesCrash: string := "AttributeError: 'User' object has no attribute 'entries'"

  const SecondsPerHour: int := 3600
  const MicroHoursPerHour: int := 1_000_000

  /** The largest value a positive-integer column holds. */
  const MaxPositiveInteger: int := 2_147_483_647
  /** `hours` is a decimal with 10 digits, 6 of them after the point. */
  const HoursDigits: nat := 10
  /** Amounts (`bill`, a user's `rate`) are decimals with 8 digits, 2 of them after the point. */
  const AmountDigits: nat := 8

  function Pow10(n: nat): (r: int)
    ensures r >= 1
  {
    if n == 0 then 1 else 10 * Pow10(n - 1)
  }

  /** A decimal scaled to an integer by its places fits a column of `digits` digits. */
  predicate FitsDecimal(scaled: int, digits: nat) {
    -Pow10(digits) < scaled < Pow10(digits)
  }

  /** A task belongs to exactly one user, whose rate it is billed at, and to exactly one project. */
  datatype Task = Task(
    user: UserId,
    project: ProjectId,
    name: string,
    code: string,
    description: string,
    kind: TaskType,
    status: TaskStatus)

  /** A task as created with only its required fields: a `FEATURE` in status `NEW` with no description. */
  function NewTask(user: UserId, project: ProjectId, name: string, code: string): (t: Task)
    ensures t.user == user && t.project == project && t.name == name && t.code == code
    ensures t.kind == Feature && t.kind.Value() == 1
    ensures t.status == New && t.status.Value() == 1
    ensures t.description == ""
  {
    Task(user, project, name, code, "", Feature, New)
  }

  /**
   * A time entry against exactly one task. `startTime` is required; `pauseTime` and `endTime` may be
   * unset. `totalTime` is in seconds, `hours` in micro-hours and `bill` in cents.
   */
  datatype Entry = Entry(
    task: TaskId,
    comment: string,
    startTime: Instant,
    pauseTime: Option<Instant>,
    endTime: Option<Instant>,
    status: EntryStatus,
    totalTime: int,
    hours: int,
    bill: int)

  /** An entry as created from its given fields, every other field at its default. */
  function NewEntry(task: TaskId, comment: string, start: Instant, end: Option<Instant>): (e: Entry)
    ensures e.task == task && e.comment == comment && e.startTime == start && e.endTime == end
    ensures e.pauseTime.None?
    ensures e.status == Active && e.status.Value() == 1
    ensures e.totalTime == 0 && e.hours == 0 && e.bill == 0
  {
    Entry(task, comment, start, None, end, Active, 0, 0, 0)
  }

  /** The numeric fields fit their columns: a non-negative 32-bit total and in-range decimals. */
  predicate Storable(e: Entry) {
    && 0 <= e.totalTime <= MaxPositiveInteger
    && FitsDecimal(e.hours, HoursDigits)
    && FitsDecimal(e.bill, AmountDigits)
  }

  /** A fresh entry fits its columns. */
  lemma NewEntryStorable(task: TaskId, comment: string, start: Instant, end: Option<Instant>)
    ensures Storable(NewEntry(task, comment, start, end))
  {
  }

  /** The column bounds written out: hours below 10^4 and amounts below 10^6, in their units. */
  lemma ColumnBounds()
    ensures Pow10(HoursDigits) == 10_000 * MicroHoursPerHour
    ensures Pow10(AmountDigits) == 1_000_000 * 100
  {
  }
}

=== FILE: passwords.dfy ===
/**
 * The password validator of the account serializers: a password may not equal the email address
 * (ignoring case), may not be shorter than the minimum length, and may not be all digits. Only the
 * first failing rule is reported.
 */
module Passwords {
  import opened Results
  import opened Text

  const DefaultMinLength: int := 8
  const SameAsEmailMessage: string := "Your password may not be the same as your email."
  const NumericMessage: string := "Your password may not be entirely numeric."

  function TooShortMessage(minLength: int): string {
    "Your password is too short. It must contain at least " + Dec(minLength) + " characters."
  }

  /** The validator's state: the lower-cased email to compare against, once known, and the minimum length. */
  datatype Validator = Validator(email: Option<string>, minLength: int)

  /** The constructor: the email argument is accepted but not kept; the email is unknown until the context is set. */
  function NewValidator(email: Option<string>, minLength: int): (v: Validator)
    ensures v.email.None? && v.minLength == minLength
  {
    Validator(None, minLength)
  }

  /**
   * Setting the context: the email submitted with the request, or else the requester's own email,
   * lower-cased.
   */
  function SetContext(v: Validator, submittedEmail: Option<string>, requesterEmail: string): (r: Validator)
    ensures r.minLength == v.minLength
    ensures r.email.Some? && Lower(r.email.value) == r.email.value
    ensures submittedEmail.Some? ==> r.email == Some(Lower(submittedEmail.value))
    ensures submittedEmail.None? ==> r.email == Some(Lower(requesterEmail))
  {
    var email := if submittedEmail.Some? then submittedEmail.value else requesterEmail;
    LowerIdempotent(email);
    v.(email := Some(Lower(email)))
  }

  /**
   * Checking a password: `None` when it is accepted, else the message of the first rule it breaks, in
   * the order email, length, digits.
   */
  function Check(v: Validator, password: string): (r: Option<string>)
    ensures r.None? <==> (&& v.email != Some(Lower(password)) && |password| >= v.minLength
                          && !IsDigits(password))
    ensures v.email == Some(Lower(password)) ==> r == Some(SameAsEmailMessage)
    ensures v.email != Some(Lower(password)) && |password| < v.minLength ==> r == Some(TooShortMessage(v.minLength))
    ensures v.email != Some(Lower(password)) && |password| >= v.minLength && IsDigits(password) ==>
              r == Some(NumericMessage)
  {
    if v.email == Some(Lower(password)) then Some(SameAsEmailMessage)
    else if |password| < v.minLength then Some(TooShortMessage(v.minLength))
    else if IsDigits(password) then Some(NumericMessage)
    else None
  }

  /** Passwords that differ only in the case of their letters get the same verdict. */
  lemma CheckIgnoresCase(v: Validator, a: string, b: string)
    requires Lower(a) == Lower(b)
    ensures Check(v, a) == Check(v, b)
  {
    LowerKeepsDigits(a, b);
  }

  /** Once the context is set, the email itself in any mix of cases is refused as a password. */
  lemma EmailRefused(v: Validator, submittedEmail: Option<string>, requesterEmail: string, password: string)
    requires Lower(password) == Lower(if submittedEmail.Some? then submittedEmail.value else requesterEmail)
    ensures Check(SetContext(v, submittedEmail, requesterEmail), password) == Some(SameAsEmailMessage)
  {
  }

  /** Before the context is set, no password is refused for matching the email. */
  lemma NoEmailRuleWithoutContext(minLength: int, email: Option<string>, password: string)
    ensures Check(NewValidator(email, minLength), password) != Some(SameAsEmailMessage)
  {
    var v := NewValidator(email, minLength);
    assert TooShortMessage(minLength) != SameAsEmailMessage by {
      var prefix := "Your password is too short. It must contain at least ";
      assert TooShortMessage(minLength)[14] == prefix[14] == 'i';
      assert SameAsEmailMessage[14] == 'm';
    }
  }

  /** With the default minimum, seven characters are too short. */
  lemma DefaultTooShort()
    ensures Check(NewValidator(None, DefaultMinLength), "abcdefg") == Some(TooShortMessage(8))
    ensures TooShortMessage(8) == "Your password is too short. It must contain at least 8 characters."
  {
    assert Dec(8) == "8";
  }

  /** With the default minimum, eight digits are refused as numeric, and a letter among them is enough. */
  lemma DefaultNumeric()
    ensures Check(NewValidator(None, DefaultMinLength), "12345678") == Some(NumericMessage)
    ensures Check(NewValidator(None, DefaultMinLength), "1234567a") == None
  {
    var digits := "12345678";
    assert IsDigits(digits) by {
      forall i | 0 <= i < |digits| ensures IsDigit(digits[i]) {
      }
    }
    assert !IsDigit("1234567a"[7]);
  }
}

=== FILE: permissions.dfy ===
/**
 * The access rules of the API: only staff and superusers may change objects, and outside those two
 * roles a user sees only the tasks of its own projects and the entries of its own tasks.
 */
module Permissions {
  import opened Results
  import opened Validation
  import opened Models
  import EntryApi

  /** The requester as the rules see it. */
  datatype Requester = Requester(id: UserId, isStaff: bool, isSuperuser: bool, projects: set<ProjectId>)

  /** The methods that change objects. */
  const ProtectedMethods: set<string> := {"POST", "PATCH", "PUT", "DELETE"}

  predicate Privileged(u: Requester) {
    u.isStaff || u.isSuperuser
  }

  /** Whether the request method `verb` is allowed to `u`: changing methods to staff and superusers, everything else to all. */
  function IsAuthorisedUser(u: Requester, verb: string): (allowed: bool)
    ensures Privileged(u) ==> allowed
    ensures verb !in ProtectedMethods ==> allowed
    ensures !allowed <==> verb in ProtectedMethods && !Privileged(u)
  {
    if verb in ProtectedMethods then u.isStaff || u.isSuperuser else true
  }

  /** Whether `u` may see the detail of task `t`. */
  function ProjectSpecificTasks(u: Requester, t: Task): (allowed: bool)
    ensures Privileged(u) ==> allowed
    ensures !Privileged(u) ==> (allowed <==> t.project in u.projects)
  {
    u.isStaff || u.isSuperuser || t.project in u.projects
  }

  /**
   * The entry rule as written. Staff and superusers are let through before anything else is read;
   * for anyone else the rule reads `entries` off the user, which raises, so the request fails.
   */
  function UserSpecificEntriesAsWritten(u: Requester, e: Entry): (r: Result<bool, Rejection>)
    ensures r.Ok? <==> Privileged(u)
    ensures r.Ok? ==> r.value
    ensures r.Err? ==> r.error == Crash(NoUserEntriesCrash)
  {
    if u.isStaff || u.isSuperuser then Ok(true) else Err(Crash(NoUserEntriesCrash))
  }

  /**
   * Whether `u` may see the detail of entry `e`, with the rule reading the entry's task's user:
   * `owners` maps each existing task to its user.
   */
  function UserSpecificEntries(u: Requester, e: Entry, owners: map<TaskId, UserId>): (allowed: bool)
    ensures Privileged(u) ==> allowed
    ensures !Privileged(u) ==> (allowed <==> e.task in owners && owners[e.task] == u.id)
  {
    u.isStaff || u.isSuperuser || (e.task in owners && owners[e.task] == u.id)
  }

  /**
   * As written, an ordinary user is refused even their own entry (the request crashes); with the
   * rule corrected they see it.
   */
  lemma OwnEntryCrashesAsWritten(u: Requester, e: Entry, owners: map<TaskId, UserId>)
    requires !Privileged(u) && e.task in owners && owners[e.task] == u.id
    ensures UserSpecificEntriesAsWritten(u, e) == Err(Crash(NoUserEntriesCrash))
    ensures UserSpecificEntries(u, e, owners)
  {
  }

  /** The two rules agree wherever the rule as written reaches a verdict. */
  lemma EntryRulesAgreeWhenPrivileged(u: Requester, e: Entry, owners: map<TaskId, UserId>)
    requires UserSpecificEntriesAsWritten(u, e).Ok?
    ensures UserSpecificEntriesAsWritten(u, e).value == UserSpecificEntries(u, e, owners)
  {
  }

  /**
   * An ordinary user sees exactly the entries whose task the start endpoint would accept from them:
   * the corrected entry rule and the start request's task-id check are the same ownership test.
   */
  lemma EntryAccessMatchesStart(u: Requester, e: Entry, owners: map<TaskId, UserId>)
    requires !Privileged(u)
    ensures UserSpecificEntries(u, e, owners) <==> EntryApi.TaskIdError(Given(e.task), owners, u.id).None?
  {
  }

  /** An ordinary user may use exactly the methods that change nothing; method names are case-sensitive. */
  lemma OrdinaryUserReadsOnly(u: Requester, verb: string)
    requires !Privileged(u)
    ensures IsAuthorisedUser(u, verb) <==> verb != "POST" && verb != "PATCH" && verb != "PUT" && verb != "DELETE"
    ensures IsAuthorisedUser(u, "GET") && !IsAuthorisedUser(u, "POST") && IsAuthorisedUser(u, "post")
  {
  }

  /** Granting a role or another project never takes access away. */
  lemma TaskAccessMonotone(u: Requester, v: Requester, t: Task)
    requires (Privileged(u) ==> Privileged(v)) && u.projects <= v.projects
    ensures ProjectSpecificTasks(u, t) ==> ProjectSpecificTasks(v, t)
  {
  }
}

=== FILE: results.dfy ===
/** Option and Result, the two shapes every validation in the model returns. */
module Results {

  /** A value that may be absent: Python's `None` or a value. */
  datatype Option<+T> = None | Some(value: T) {

    /** Python truthiness of an optional value whose present values are always truthy. */
    predicate IsSet() {
      Some?
    }
  }

  /** The outcome of an operation that either succeeds or raises a validation error. */
  datatype Result<+T, +E> = Ok(value: T) | Err(error: E)
}

/**
 * The error shape of the request layer: a serializer or form either reports a map from field
 * name to the first message raised for that field, or (when a constructor refuses outright)
 * a bare message; an exception that is not a validation error escapes as a crash.
 */
module Validation {
  import opened Results
  import Text

  /** Key under which an object-level `validate`/`clean` message is reported. */
  const NonFieldErrors: string := "non_field_errors"

  const RequiredMessage: string := "This field is required."
  const BlankMessage: string := "This field may not be blank."
  const NullMessage: string := "This field may not be null."

  /**
   * What a request carries for one field: nothing (the field was not sent), a JSON `null`, a value
   * the field's own parser refused (a malformed date, say, with the parser's message), or a parsed
   * value.
   */
  datatype Input<+T> = Absent | Null | Malformed(message: string) | Given(value: T)

  /**
   * The error a request field reports before its validator runs: a null, or the parser's message.
   * A field that was not sent is an error only when it is required; a partial request skips it.
   */
  function InputError<T>(x: Input<T>, required: bool): (err: Option<string>)
    ensures err.None? <==> x.Given? || (x.Absent? && !required)
    ensures x.Absent? && required ==> err == Some(RequiredMessage)
    ensures x.Null? ==> err == Some(NullMessage)
    ensures x.Malformed? ==> err == Some(x.message)
  {
    match x
    case Absent => if required then Some(RequiredMessage) else None
    case Null => Some(NullMessage)
    case Malformed(msg) => Some(msg)
    case Given(_) => None
  }

  /**
   * Why a request or form submission produced no result: field errors, a bare message, or an
   * exception other than a validation error escaping the validation code (a server error).
   */
  datatype Rejection =
    | FieldErrors(fields: map<string, string>)
    | Detail(message: string)
    | Crash(exception: string)

  /** The request was refused, and `key` carries `msg` among its field errors. */
  predicate Reports<T>(r: Result<T, Rejection>, key: string, msg: string) {
    r.Err? && r.error.FieldErrors? && key in r.error.fields && r.error.fields[key] == msg
  }

  /**
   * The field errors gathered from the optional error of each field validator, one validator per
   * field: exactly the failing fields are reported, each with its own message.
   */
  function Collect(checks: seq<(string, Option<string>)>): (m: map<string, string>)
    requires forall i, j :: 0 <= i < j < |checks| ==> checks[i].0 != checks[j].0
    ensures forall i :: 0 <= i < |checks| ==> (checks[i].0 in m <==> checks[i].1.Some?)
    ensures forall i :: 0 <= i < |checks| && checks[i].1.Some? ==> m[checks[i].0] == checks[i].1.value
    ensures forall k :: k in m ==> exists i :: 0 <= i < |checks| && checks[i].0 == k
    ensures m == map[] <==> forall i :: 0 <= i < |checks| ==> checks[i].1.None?
  {
    if |checks| == 0 then map[]
    else
      var rest := Collect(checks[1..]);
      assert forall i :: 1 <= i < |checks| ==> checks[i] == checks[1..][i - 1];
      match checks[0].1
      case None => rest
      case Some(msg) => rest[checks[0].0 := msg]
  }

  /**
   * A serializer `CharField` with `allow_blank=False` and `trim_whitespace=True`: a missing value
   * is an error only when the field is required; a value that is blank once stripped is refused;
   * otherwise the stripped text is kept.
   */
  function CharField(input: Option<string>, required: bool): (r: Result<Option<string>, string>)
    ensures input.None? ==> (r.Err? <==> required)
    ensures input.None? && r.Ok? ==> r.value.None?
    ensures input.Some? ==> (r.Err? <==> Text.Blank(input.value))
    ensures r.Err? ==> r.error == (if input.None? then RequiredMessage else BlankMessage)
    ensures input.Some? && r.Ok? ==> r.value == Some(Text.Strip(input.value))
  {
    match input
    case None => if required then Err(RequiredMessage) else Ok(None)
    case Some(s) =>
      Text.StripEmpty(s);
      var t := Text.Strip(s);
      if t == "" then Err(BlankMessage) else Ok(Some(t))
  }
}

=== FILE: serializer_selection.dfy ===
/**
 * Choosing a serializer per view action: the action's own serializer when one is configured, with
 * the metadata action borrowing the first configured of create, update and list; otherwise the
 * view's default.
 */
module SerializerSelection {
  import opened Results

  const MetadataAction: string := "metadata"
  const MetaActions: seq<string> := ["create", "update", "list"]

  /** The first of `candidates` configured in `serializers`, if any. */
  function FirstConfigured<S>(candidates: seq<string>, serializers: map<string, S>): (r: Option<string>)
    ensures r.Some? ==> r.value in candidates && r.value in serializers
    ensures r.Some? ==> exists i :: 0 <= i < |candidates| && candidates[i] == r.value &&
                          forall j :: 0 <= j < i ==> candidates[j] !in serializers
    ensures r.None? <==> forall i :: 0 <= i < |candidates| ==> candidates[i] !in serializers
  {
    if |candidates| == 0 then None
    else if candidates[0] in serializers then Some(candidates[0])
    else
      var rest := FirstConfigured(candidates[1..], serializers);
      assert forall i :: 1 <= i < |candidates| ==> candidates[i] == candidates[1..][i - 1];
      rest
  }

  /** The action after the metadata remapping. */
  function Effective<S>(action: Option<string>, serializers: map<string, S>): Option<string> {
    if action == Some(MetadataAction) then
      match FirstConfigured(MetaActions, serializers)
      case Some(a) => Some(a)
      case None => action
    else action
  }

  /**
   * The serializer for `action` (absent when the view has none): a configured action gets its own,
   * and an absent or empty action, or one not configured, gets `fallback`.
   */
  function Select<S>(action: Option<string>, serializers: map<string, S>, fallback: S): (r: S)
    ensures r == fallback || exists k :: k in serializers && serializers[k] == r
    ensures action.Some? && action.value != MetadataAction && action.value != "" && action.value in serializers ==>
              r == serializers[action.value]
    ensures action.None? || action == Some("") || (action.value != MetadataAction && action.value !in serializers) ==>
              r == fallback
  {
    match Effective(action, serializers)
    case Some(a) => if a != "" && a in serializers then serializers[a] else fallback
    case None => fallback
  }

  /** The metadata action uses the serializer of create, else update, else list, whichever is configured first. */
  lemma MetadataBorrows<S>(serializers: map<string, S>, fallback: S)
    ensures "create" in serializers ==> Select(Some(MetadataAction), serializers, fallback) == serializers["create"]
    ensures "create" !in serializers && "update" in serializers ==>
              Select(Some(MetadataAction), serializers, fallback) == serializers["update"]
    ensures "create" !in serializers && "update" !in serializers && "list" in serializers ==>
              Select(Some(MetadataAction), serializers, fallback) == serializers["list"]
  {
    var r := FirstConfigured(MetaActions, serializers);
    assert MetaActions[0] == "create" && MetaActions[1] == "update" && MetaActions[2] == "list";
    if "create" in serializers {
      assert r == Some("create");
    } else if "update" in serializers {
      assert r == Some("update");
    } else if "list" in serializers {
      assert r == Some("list");
    }
  }

  /**
   * With none of create, update and list configured, the metadata action falls back unless a
   * serializer is configured for "metadata" itself; with nothing configured it always falls back.
   */
  lemma MetadataFallsBack<S>(serializers: map<string, S>, fallback: S)
    requires "create" !in serializers && "update" !in serializers && "list" !in serializers
    ensures Select(Some(MetadataAction), serializers, fallback) ==
              if MetadataAction in serializers then serializers[MetadataAction] else fallback
    ensures Select(Some(MetadataAction), map[], fallback) == fallback
  {
    assert MetaActions[0] == "create" && MetaActions[1] == "update" && MetaActions[2] == "list";
    assert FirstConfigured(MetaActions, serializers).None?;
  }
}

=== FILE: text.dfy ===
/**
 * The few string operations of Python's `str` that the model needs, restricted to ASCII:
 * `strip`, `lower`, `isdigit` and `str(int)`.
 */
module Text {

  /** `str.isspace` on the ASCII range: tab, line feed, vertical tab, form feed, carriage return, the four
      separator controls and the space. */
  predicate IsSpace(c: char) {
    c == ' ' || '\t' <= c <= '\r' || '\U{1c}' <= c <= '\U{1f}'
  }

  predicate IsUpper(c: char) { 'A' <= c <= 'Z' }
  predicate IsDigit(c: char) { '0' <= c <= '9' }

  function LowerChar(c: char): char {
    if IsUpper(c) then (c as int + 32) as char else c
  }

  /** `str.lower`. */
  function Lower(s: string): (r: string)
    ensures |r| == |s|
    ensures forall i :: 0 <= i < |s| ==> r[i] == LowerChar(s[i])
  {
    if |s| == 0 then "" else [LowerChar(s[0])] + Lower(s[1..])
  }

  /** Lower-casing twice is lower-casing once. */
  lemma LowerIdempotent(s: string)
    ensures Lower(Lower(s)) == Lower(s)
  {
  }

  /** Lower-casing neither makes nor unmakes a digit. */
  lemma LowerCharDigit(c: char)
    ensures IsDigit(LowerChar(c)) <==> IsDigit(c)
  {
  }

  /** Strings with the same lower-case form have the same length and the same digits. */
  lemma LowerKeepsDigits(a: string, b: string)
    requires Lower(a) == Lower(b)
    ensures |a| == |b|
    ensures forall i :: 0 <= i < |a| ==> (IsDigit(a[i]) <==> IsDigit(b[i]))
  {
    forall i | 0 <= i < |a| ensures IsDigit(a[i]) <==> IsDigit(b[i]) {
      var x, y := a[i], b[i];
      assert LowerChar(x) == LowerChar(y) by {
        assert LowerChar(x) == Lower(a)[i] && LowerChar(y) == Lower(b)[i];
      }
      LowerCharDigit(x);
      LowerCharDigit(y);
    }
  }

  /** `str.isdigit`: at least one character, and every character a digit. */
  predicate IsDigits(s: string) {
    |s| > 0 && forall i :: 0 <= i < |s| ==> IsDigit(s[i])
  }

  /** `str.lstrip()`: the longest suffix of `s` that does not start with whitespace. */
  function StripLeft(s: string): (r: string)
    ensures |r| <= |s| && r == s[|s| - |r|..]
    ensures forall i :: 0 <= i < |s| - |r| ==> IsSpace(s[i])
    ensures |r| == 0 || !IsSpace(r[0])
  {
    if |s| > 0 && IsSpace(s[0]) then StripLeft(s[1..]) else s
  }

  /** `str.rstrip()`: the longest prefix of `s` that does not end with whitespace. */
  function StripRight(s: string): (r: string)
    ensures |r| <= |s| && r == s[..|r|]
    ensures forall i :: |r| <= i < |s| ==> IsSpace(s[i])
    ensures |r| == 0 || !IsSpace(r[|r| - 1])
  {
    if |s| > 0 && IsSpace(s[|s| - 1]) then StripRight(s[..|s| - 1]) else s
  }

  /** `str.strip()`: `s` without its leading and trailing whitespace. */
  function Strip(s: string): (r: string)
    ensures |r| <= |s|
    ensures |r| == 0 || (!IsSpace(r[0]) && !IsSpace(r[|r| - 1]))
    ensures (forall i :: 0 <= i < |s| ==> !IsSpace(s[i])) ==> r == s
  {
    StripRight(StripLeft(s))
  }

  /** Every character of `s` is whitespace (the empty string included). */
  predicate Blank(s: string) {
    forall i :: 0 <= i < |s| ==> IsSpace(s[i])
  }

  /** A concatenation is blank exactly when both of its parts are. */
  lemma BlankConcat(a: string, b: string)
    ensures Blank(a + b) <==> Blank(a) && Blank(b)
  {
    var c := a + b;
    if Blank(a) && Blank(b) {
      forall i | 0 <= i < |c|
        ensures IsSpace(c[i])
      {
        if i < |a| {
          assert c[i] == a[i];
        } else {
          assert c[i] == b[i - |a|];
        }
      }
    } else if !Blank(a) {
      var i :| 0 <= i < |a| && !IsSpace(a[i]);
      assert c[i] == a[i];
    } else {
      var i :| 0 <= i < |b| && !IsSpace(b[i]);
      assert c[|a| + i] == b[i];
    }
  }

  /** A string strips to nothing exactly when it is all whitespace. */
  lemma StripEmpty(s: string)
    ensures Strip(s) == "" <==> Blank(s)
  {
    var l := StripLeft(s);
    if l == "" {
      assert forall i :: 0 <= i < |s| ==> IsSpace(s[i]);
    } else {
      assert !IsSpace(l[0]);
      assert StripRight(l) != "";
      assert l[0] == s[|s| - |l|];
    }
  }

  /** The decimal digit character for `d`. */
  function DigitChar(d: int): char
    requires 0 <= d < 10
  {
    ('0' as int + d) as char
  }

  /** `str(n)` for a natural number: the shortest decimal numeral of `n`. */
  function DecNat(n: nat): (r: string)
    ensures |r| > 0
    ensures forall i :: 0 <= i < |r| ==> IsDigit(r[i])
    ensures r[0] == '0' ==> n == 0
  {
    if n < 10 then [DigitChar(n)] else DecNat(n / 10) + [DigitChar(n % 10)]
  }

  /** `str(i)` for any integer: a minus sign before the numeral of a negative number. */
  function Dec(i: int): (r: string)
    ensures |r| > 0
    ensures r[0] == '-' <==> i < 0
  {
    if i < 0 then "-" + DecNat(-i) else DecNat(i)
  }

  /** Different natural numbers have different numerals. */
  lemma {:induction false} DecNatInjective(a: nat, b: nat)
    requires DecNat(a) == DecNat(b)
    ensures a == b
    decreases a
  {
    if a >= 10 && b >= 10 {
      var sa, sb := DecNat(a / 10), DecNat(b / 10);
      assert DecNat(a) == sa + [DigitChar(a % 10)];
      assert DecNat(b) == sb + [DigitChar(b % 10)];
      assert |sa| == |sb|;
      assert sa == DecNat(a)[..|sa|] == DecNat(b)[..|sb|] == sb;
      assert DecNat(a)[|sa|] == DecNat(b)[|sb|];
      DecNatInjective(a / 10, b / 10);
    }
  }

  /** `str` is injective on integers, so a numeral names exactly one integer. */
  lemma DecInjective(a: int, b: int)
    requires Dec(a) == Dec(b)
    ensures a == b
  {
    if a < 0 && b < 0 {
      assert DecNat(-a) == Dec(a)[1..] == Dec(b)[1..] == DecNat(-b);
      DecNatInjective(-a, -b);
    } else if a >= 0 && b >= 0 {
      DecNatInjective(a, b);
    }
  }
}

=== FILE: user_forms.dfy ===
/**
 * The administration forms for users: the change form keeps the deactivation time in step with the
 * active flag, and the creation form requires an hourly rate of every user who is neither staff
 * nor superuser.
 */
module UserForms {
  import opened Results
  import opened Validation
  import opened Text
  import opened Models
  import opened Users

  const RateRequiredMessage: string := "Non-staff/Non-super users must enter their hourly rate."
  const NegativeRateMessage: string := "Ensure this value is greater than or equal to 0."
  const NameMaxLength: int := 50

  function TooLongMessage(length: int): string {
    "Ensure this value has at most 50 characters (it has " + Dec(length) + ")."
  }

  /**
   * Saving the change form, `u` holding the submitted fields: an active user loses its deactivation
   * time, an inactive user without one gets the current time, an inactive user with one keeps it;
   * the user is then saved, which re-derives the name.
   */
  function ChangeSave(u: User, now: Instant): (r: User)
    ensures r.deactivatedAt.None? <==> r.isActive
    ensures u.isActive ==> r.deactivatedAt.None?
    ensures !u.isActive && u.deactivatedAt.Some? ==> r.deactivatedAt == u.deactivatedAt
    ensures !u.isActive && u.deactivatedAt.None? ==> r.deactivatedAt == Some(now)
    ensures r.(deactivatedAt := u.deactivatedAt) == Save(u)
  {
    var deactivatedAt :=
      if u.isActive && u.deactivatedAt.Some? then None
      else if !u.isActive && u.deactivatedAt.None? then Some(now)
      else u.deactivatedAt;
    Save(u.(deactivatedAt := deactivatedAt))
  }

  /** Saving the change form again, at any later time, changes nothing. */
  lemma ChangeSaveIdempotent(u: User, now: Instant, later: Instant)
    ensures ChangeSave(ChangeSave(u, now), later) == ChangeSave(u, now)
  {
  }

  /** The submitted fields of the creation form; `rate` is in cents. */
  datatype CreateForm = CreateForm(
    email: string,
    password: string,
    firstName: Option<string>,
    lastName: Option<string>,
    rate: Option<int>,
    isActive: bool,
    isStaff: bool,
    isSuperuser: bool)

  /** A required name field of at most 50 characters, stripped. */
  function NameError(input: Option<string>): Option<string> {
    match input
    case None => Some(RequiredMessage)
    case Some(s) =>
      var t := Strip(s);
      if t == "" then Some(RequiredMessage)
      else if |t| > NameMaxLength then Some(TooLongMessage(|t|))
      else None
  }

  /** The optional rate field, at least zero. */
  function RateFieldError(rate: Option<int>): Option<string> {
    if rate.Some? && rate.value < 0 then Some(NegativeRateMessage) else None
  }

  /** Python truthiness of the rate: a missing rate and a zero rate are both false. */
  predicate RateGiven(rate: Option<int>) {
    rate.Some? && rate.value != 0
  }

  /** The rate rule: a user who is neither staff nor superuser must have a (non-zero) rate. */
  predicate RateMissing(f: CreateForm) {
    !f.isSuperuser && !f.isStaff && !RateGiven(f.rate)
  }

  /**
   * The field errors of the creation form from the outcome of each field's own check: exactly the
   * fields whose check failed are reported, each with that check's message.
   */
  function CreateFieldErrors(firstNameError: Option<string>, lastNameError: Option<string>,
                             rateError: Option<string>): (m: map<string, string>)
    ensures m == map[] <==> firstNameError.None? && lastNameError.None? && rateError.None?
    ensures "rate" in m <==> rateError.Some?
    ensures firstNameError.Some? ==> "first_name" in m && m["first_name"] == firstNameError.value
    ensures lastNameError.Some? ==> "last_name" in m && m["last_name"] == lastNameError.value
    ensures rateError.Some? ==> m["rate"] == rateError.value
  {
    var checks := [("first_name", firstNameError), ("last_name", lastNameError), ("rate", rateError)];
    assert checks[0].0 == "first_name" && checks[1].0 == "last_name" && checks[2].0 == "rate";
    Collect(checks)
  }

  /** The user the creation form saves: the submitted fields, with the name derived from the stripped parts. */
  function Created(f: CreateForm): (u: User)
    requires f.firstName.Some? && f.lastName.Some?
    ensures u.name == JoinedName(Strip(f.firstName.value), Strip(f.lastName.value))
    ensures u.email == f.email && u.password == Some(f.password) && u.rate == f.rate
    ensures u.isStaff == f.isStaff && u.isSuperuser == f.isSuperuser && u.isActive == f.isActive
    ensures u.deactivatedAt.None?
  {
    Save(User(f.email, Some(f.password), "", Strip(f.firstName.value), Strip(f.lastName.value),
              f.isStaff, f.isSuperuser, f.isActive, None, f.rate))
  }

  /**
   * Submitting the creation form as written. The rate rule reads the rate unconditionally, so a
   * negative rate, which its field refuses and drops, raises `KeyError` instead of being reported.
   */
  function CreateAsWritten(f: CreateForm): (r: Result<User, Rejection>)
    ensures f.rate.Some? && f.rate.value < 0 ==> r == Err(Crash("KeyError: 'rate'"))
    ensures !(f.rate.Some? && f.rate.value < 0) ==> r == Create(f)
  {
    if f.rate.Some? && f.rate.value < 0 then Err(Crash("KeyError: 'rate'"))
    else Create(f)
  }

  /**
   * Submitting the creation form with the rate rule applied only when the rate passed its own
   * check. It saves exactly when both names are given and short enough, the rate is not negative
   * and the rate rule holds; a zero rate counts as no rate.
   */
  function Create(f: CreateForm): (r: Result<User, Rejection>)
    ensures r.Ok? <==> (&& NameError(f.firstName).None? && NameError(f.lastName).None?
                        && !(f.rate.Some? && f.rate.value < 0) && !RateMissing(f))
    ensures r.Err? ==> r.error.FieldErrors?
    ensures f.rate.Some? && f.rate.value < 0 ==> Reports(r, "rate", NegativeRateMessage)
    ensures !(f.rate.Some? && f.rate.value < 0) && RateMissing(f) ==> Reports(r, "rate", RateRequiredMessage)
    ensures f.firstName.None? ==> Reports(r, "first_name", RequiredMessage)
    ensures f.lastName.None? ==> Reports(r, "last_name", RequiredMessage)
    ensures r.Ok? ==> r.value == Created(f)
  {
    var errors := CreateFieldErrors(NameError(f.firstName), NameError(f.lastName), RateFieldError(f.rate));
    var rule: map<string, string> := if "rate" !in errors && RateMissing(f) then map["rate" := RateRequiredMessage] else map[];
    assert "first_name" !in rule && "last_name" !in rule;
    if errors == map[] && rule == map[] then Ok(Created(f))
    else Err(FieldErrors(errors + rule))
  }

  /** A zero rate is treated as no rate: an employee with a zero rate is refused as if it had none. */
  lemma ZeroRateIsMissing(f: CreateForm)
    requires !f.isStaff && !f.isSuperuser && f.rate == Some(0)
    ensures CreateAsWritten(f).Err? && CreateAsWritten(f) == CreateAsWritten(f.(rate := None))
  {
    var g := f.(rate := None);
    assert RateFieldError(f.rate) == RateFieldError(g.rate);
  }

  /** Staff and superusers need no rate. */
  lemma StaffNeedNoRate(f: CreateForm)
    requires f.isStaff || f.isSuperuser
    requires NameError(f.firstName).None? && NameError(f.lastName).None? && f.rate.None?
    ensures CreateAsWritten(f).Ok?
  {
  }

  /** A negative rate crashes the form as written; the checked form reports it on the rate field. */
  lemma NegativeRateCrashes(f: CreateForm)
    requires f.rate.Some? && f.rate.value < 0
    ensures CreateAsWritten(f).error.Crash?
    ensures Create(f).error.FieldErrors? && Create(f).error.fields["rate"] == NegativeRateMessage
  {
  }

  /**
   * The user a valid creation form saves is already saved: saving it again derives the same name,
   * and it goes by that joined name, never by its email.
   */
  lemma CreatedNameAsSaved(f: CreateForm)
    requires NameError(f.firstName).None? && NameError(f.lastName).None?
    ensures Save(Created(f)) == Created(f)
    ensures FullName(Created(f)) == JoinedName(Strip(f.firstName.value), Strip(f.lastName.value))
  {
    var first := Strip(f.firstName.value);
    assert first != "" && !IsSpace(first[0]);
    assert !Blank(first);
  }
}

=== FILE: users.dfy ===
/**
 * The user account: its name derived from the first and last names on every save, the short and
 * full names with their fallbacks, and the manager's checks when creating users and superusers.
 */
module Users {
  import opened Results
  import opened Text
  import opened Models

  const NoEmailMessage: string := "TypeError: Users must have an email address."
  const NoPasswordMessage: string := "TypeError: Superusers must have a password."

  /**
   * A user. `password` is the password as set (hashing is not modelled; `None` makes it unusable);
   * `rate` is the optional hourly rate in cents.
   */
  datatype User = User(
    email: string,
    password: Option<string>,
    name: string,
    firstName: string,
    lastName: string,
    isStaff: bool,
    isSuperuser: bool,
    isActive: bool,
    deactivatedAt: Option<Instant>,
    rate: Option<int>)

  /** The first and last names joined by a space, with surrounding whitespace stripped. */
  function JoinedName(first: string, last: string): (r: string)
    ensures r == "" <==> Blank(first) && Blank(last)
  {
    JoinedBlank(first, last);
    Strip(first + " " + last)
  }

  /** The joined text is all whitespace exactly when both names are. */
  lemma JoinedBlank(first: string, last: string)
    ensures Strip(first + " " + last) == "" <==> Blank(first) && Blank(last)
  {
    StripEmpty(first + " " + last);
    BlankConcat(first + " ", last);
    BlankConcat(first, " ");
    assert IsSpace(" "[0]);
  }

  /** Saving a user re-derives the name from the first and last names and changes nothing else. */
  function Save(u: User): (r: User)
    ensures r.name == JoinedName(u.firstName, u.lastName)
    ensures r.(name := u.name) == u
  {
    u.(name := JoinedName(u.firstName, u.lastName))
  }

  /** Saving twice is saving once. */
  lemma SaveIdempotent(u: User)
    ensures Save(Save(u)) == Save(u)
  {
  }

  /** The short name: the first name, else the name, else the email. */
  function ShortName(u: User): (r: string)
    ensures u.firstName != "" ==> r == u.firstName
    ensures u.firstName == "" && u.name != "" ==> r == u.name
    ensures u.firstName == "" && u.name == "" ==> r == u.email
  {
    if u.firstName != "" then u.firstName else if u.name != "" then u.name else u.email
  }

  /** The full name: the name, else the email. */
  function FullName(u: User): (r: string)
    ensures u.name != "" ==> r == u.name
    ensures u.name == "" ==> r == u.email
  {
    if u.name != "" then u.name else u.email
  }

  /** A saved user goes by its joined name, falling back to the email exactly when both name parts are blank. */
  lemma SavedFullName(u: User)
    ensures FullName(Save(u)) ==
              if Blank(u.firstName) && Blank(u.lastName) then u.email else JoinedName(u.firstName, u.lastName)
  {
  }

  /** A saved user with no first name and a blank last name goes by the email for its short name too. */
  lemma SavedShortName(u: User)
    requires u.firstName == "" && Blank(u.lastName)
    ensures ShortName(Save(u)) == u.email
  {
  }

  /**
   * `create_user`: an email is required (it is stored as given); the user is saved with the given
   * password and every other field at its default.
   */
  function CreateUser(email: Option<string>, password: Option<string>): (r: Result<User, string>)
    ensures r.Err? <==> email.None?
    ensures r.Err? ==> r.error == NoEmailMessage
    ensures r.Ok? ==> (&& r.value.email == email.value && r.value.password == password
                       && r.value.name == "" && r.value.firstName == "" && r.value.lastName == ""
                       && !r.value.isStaff && !r.value.isSuperuser && r.value.isActive
                       && r.value.deactivatedAt.None? && r.value.rate.None?)
  {
    match email
    case None => Err(NoEmailMessage)
    case Some(address) =>
      assert Strip("" + " " + "") == "" by {
        StripEmpty(" ");
      }
      Ok(Save(User(address, password, "", "", "", false, false, true, None, None)))
  }

  /**
   * `create_superuser`: a password is required and checked before the email; the user is created
   * as by `create_user` and then made staff and superuser.
   */
  function CreateSuperuser(email: Option<string>, password: Option<string>): (r: Result<User, string>)
    ensures r.Ok? <==> email.Some? && password.Some?
    ensures password.None? ==> r == Err(NoPasswordMessage)
    ensures password.Some? && email.None? ==> r == Err(NoEmailMessage)
    ensures r.Ok? ==> (&& r.value.isStaff && r.value.isSuperuser
                       && r.value == CreateUser(email, password).value.(isStaff := true, isSuperuser := true))
  {
    if password.None? then Err(NoPasswordMessage)
    else
      match CreateUser(email, password)
      case Err(msg) => Err(msg)
      case Ok(u) => Ok(Save(u.(isSuperuser := true, isStaff := true)))
  }
}
